=== FILE: README.md ===
# ReelNest authentication, feed and gesture logic in Dafny

This project models the decision logic of ReelNest, a short-video sharing web
application, as pure Dafny functions over immutable values:

- **Signup route** (`SignupRoute`). It validates in a fixed order: presence, e-mail format, username format, then password length. It then checks for a collision with existing users and inserts the new user with a lower-cased e-mail. The route answers with a token and a password-free user.
- **Login route** (`LoginRoute`). It looks the user up by the lower-cased e-mail. An unknown e-mail and a wrong password get the same 401 answer.
- **"Current user" route** (`MeRoute`) and the **bearer guard** it shares with the upload route (`Tokens`).
- **Upload route** (`UploadRoute`). It runs the guard, the form checks and the owner lookup, stores the video blob, and inserts the initial reel with empty engagement lists.
- **Reel listing route** (`ReelsRoute`). It builds the category and owner filters, where the category `"all"` means no filter. It sorts newest first and turns each `_id` into text.
- **Feed client updates** (`ReelsFeed`). This covers the like and dislike answers folded into the list of reels, comment append, and the index of the reel in view.
- **Swipe gesture** of the video player (`VideoPlayer`). Past 50 pixels it shows an indicator; past 100 pixels it commits a like or dislike.
- **Session provider** (`AuthProvider`). This covers the start-up check, login, signup and logout, and the two redirect guards.
- **Cross-route properties** (`Flows`). A new account can log in. A login token identifies its user to the "current user" route and survives a page reload, once that route's lookup projection is corrected (see Findings). An uploaded reel appears in its owner's listing.

External collaborators are parameters. Token signing and verification form a `TokenService` of two total
functions. Password hashing and comparison form a `Crypto` value. Exceptions a collaborator can throw are a
`Fault` value that names the step at which one throws. The collections, the identifiers the database assigns,
the hashing salt and the clock are inputs to each handler.

Where the code's behaviour is surprising, the model follows the code:

- The "current user" and upload routes answer 500 when the token's user id is not a 24-digit hexadecimal identifier.
- A JSON body that is the literal `null` makes signup and login answer 500, not 400.
- A failing token signature after the signup insert answers 500 although the user was stored.
- The upload route accepts any non-empty category. It does not restrict the category to the six listed ones.
- The server's like route (app/api/reels/[id]/like/route.ts:36-39) adds the id only when it is absent. The client appends the id without checking, so a stale list can hold it twice.

## Model

| member | source | states |
|---|---|---|
| Base.FindFirst | app/api/auth/login/route.ts:35 | the document a lookup returns is the first that matches, and none is returned only when nothing matches |
| Base.RemoveAll | components/reels/reels-feed.tsx:76 | filtering an id out removes every occurrence and keeps every other element with its multiplicity |
| Base.RemoveAllConcat | components/reels/reels-feed.tsx:76 | filtering works piecewise over a concatenation, so the kept elements stay in their order |
| Base.RemoveAllSingle | components/reels/reels-feed.tsx:76 | a single element is kept exactly when it differs from the removed id |
| Base.RemoveAllAppended | components/reels/reels-feed.tsx:75 | appending an id and then filtering it out equals only filtering it out |
| Text.ToLower | app/api/auth/signup/route.ts:85 | each ASCII upper-case letter becomes its lower-case letter and every other character is kept |
| Text.ToLowerNormalises | app/api/auth/signup/route.ts:85 | lower-casing leaves no upper-case letter, is idempotent and fixes lower-cased text |
| Text.Utf16Length | app/api/auth/signup/route.ts:53 | the password length counts UTF-16 code units: the character count when all lie in the Basic Multilingual Plane, twice it when none do, and in between otherwise |
| Text.Utf16LengthSingle | app/api/auth/signup/route.ts:53 | one character counts two code units exactly when it lies outside the Basic Multilingual Plane, and one otherwise |
| Text.Utf16LengthConcat | app/api/auth/signup/route.ts:53 | the count of a concatenation is the sum of the counts |
| Text.EmailCheckMatchesPattern | app/api/auth/signup/route.ts:39-43 | the e-mail check accepts exactly what the pattern matches: one '@', no whitespace, a non-empty local part, and a domain with an inner '.' |
| Types.ParseObjectId | app/api/auth/me/route.ts:27 | an identifier parses exactly from 24 hexadecimal digits, to the lower-cased text |
| Types.ParseIdString | app/api/auth/me/route.ts:27 | printing a stored identifier and parsing it back gives the identifier |
| Types.Stringify | app/api/reels/route.ts:24-27 | the listed reel carries its identifier as text, and every other field unchanged |
| Tokens.BearerToken | app/api/auth/me/route.ts:11-16 | a token exists exactly when the header starts with "Bearer ", and the header is then "Bearer " followed by the token |
| Tokens.BearerRoundTrip | app/api/auth/me/route.ts:16 | a header built from a token yields that token |
| Tokens.Authenticate | app/api/reels/upload/route.ts:9-18 | a missing or malformed header, a rejected token, or the verified user id |
| Tokens.Rejection | app/api/auth/me/route.ts:12-20 | a turned-away request is answered 401, with "No token provided" for a missing or malformed header and "Invalid token" for a rejected token |
| SignupRoute.Validate | app/api/auth/signup/route.ts:26-56 | the four checks in order, where the first failure decides; the missing-field details name exactly the missing fields, each with its "... is required" message |
| SignupRoute.CollisionField | app/api/auth/signup/route.ts:85 | a collision names "email" exactly when the e-mails are equal ignoring case |
| SignupRoute.CreateFailure | app/api/auth/signup/route.ts:132-160 | a duplicate-key server error answers 400 "Username or email already exists"; every other error answers 500 "Failed to create user" |
| SignupRoute.NewUser | app/api/auth/signup/route.ts:95-101 | the stored user gets the assigned identifier, the username, the lower-cased e-mail, the hashed password, an empty bio and the current time |
| SignupRoute.Publish | app/api/auth/signup/route.ts:107-113 | the answered user has the stored identifier, username, e-mail and creation date, the stored bio (empty when missing), and no password |
| SignupRoute.Register | app/api/auth/signup/route.ts:58-131 | the collection grows by the new user only when no stored user collides; an error thrown while connecting or querying, or while hashing or inserting when nothing collides, gets the duplicate-key-or-500 answer and stores nothing; one thrown while signing the token gets that answer with the user already stored |
| SignupRoute.Signup | app/api/auth/signup/route.ts:12-36 | an unparseable body answers 400; a `null` body answers 500; an invalid request gets its validation answer; a valid one gets the database part's answer and effect; nothing is stored unless the request is valid |
| SignupRoute.SignupSucceedsIff | app/api/auth/signup/route.ts:58-131 | signup succeeds exactly when the request is valid, nothing collides and nothing throws; the new user is then stored with a lower-cased e-mail and answered without a password |
| SignupRoute.CollisionIsReported | app/api/auth/signup/route.ts:66-90 | a collision answers 400, names the field the first colliding user matched on, and inserts nothing |
| SignupRoute.ValidationPrecedesDatabase | app/api/auth/signup/route.ts:26-60 | an invalid request gets the same answer whatever the database holds or throws |
| SignupRoute.SignupPreservesWellFormedUsers | app/api/auth/signup/route.ts:66-104 | signup keeps stored e-mails lower-cased and distinct, and keeps usernames and identifiers distinct |
| LoginRoute.LoginView | app/api/auth/login/route.ts:52-57 | the answered user has identifier, username, e-mail and the stored bio (empty when missing), and no password |
| LoginRoute.LookupByEmail | app/api/auth/login/route.ts:35 | the lookup matches the stored e-mail against the submitted one lower-cased |
| LoginRoute.Login | app/api/auth/login/route.ts:9-89 | a `null` body and every error thrown by the database, the password comparison or the token signer answer the generic 500; an unknown e-mail or a refused password answers the one "Invalid credentials" 401; success means a stored user with that e-mail accepted the password |
| LoginRoute.UnknownEmailAndWrongPasswordLookAlike | app/api/auth/login/route.ts:36-47 | an unknown e-mail and a wrong password get identical answers |
| LoginRoute.LoginSucceedsIff | app/api/auth/login/route.ts:35-57 | login succeeds exactly when the first user with the e-mail accepts the password and nothing throws |
| MeRoute.MeView | app/api/auth/me/route.ts:44-52 | the answered user has no password, the stored bio and creation date, with an empty bio and "now" standing in for missing ones |
| MeRoute.LookupById | app/api/auth/me/route.ts:26-42 | the lookup finds a user with the token's identifier, or reports that none exists |
| MeRoute.Me | app/api/auth/me/route.ts:9-67 | a guard failure answers 401 with its message; a thrown database error or an identifier that is not 24 hexadecimal digits answers 500; otherwise the answer is 404 "User not found" exactly when no user has the identifier, and 200 with that stored user otherwise |
| MeRoute.MeAsWritten | app/api/auth/me/route.ts:27-38 | as written, a request past the guard always answers 500, because the lookup's projection mixes exclusion and inclusion |
| MeRoute.RejectedTokenSkipsDatabase | app/api/auth/me/route.ts:11-20 | a rejected token gets the same answer whatever the database holds |
| UploadRoute.InitialReel | app/api/reels/upload/route.ts:62-73 | a new reel has empty likes, dislikes and comments, the token's user id, the owner's username, the given title and category, the given description or an empty one, and the current time |
| UploadRoute.Upload | app/api/reels/upload/route.ts:7-85 | guard failures answer 401 before the form is read; an unreadable form answers 500; missing fields answer 400; a thrown database error or an ill-formed identifier answers 500; a well-formed identifier with no stored user answers 404 "User not found", and every 404 is such a case; a failing video store answers 500 with nothing stored, a failing reel insert 500 with only the blob stored; an authenticated, complete upload by a stored owner with no thrown error answers 200; success stores the blob and one reel and answers that reel |
| UploadRoute.FailedInsertOrphansVideo | app/api/reels/upload/route.ts:42-83 | a failing reel insert answers 500 and leaves the stored video without a reel |
| ReelsRoute.BuildQuery | app/api/reels/route.ts:14-20 | the category filter applies only to a non-empty value other than "all"; the owner filter applies to any non-empty value |
| ReelsRoute.ParamsSelect | app/api/reels/route.ts:14-22 | a reel is selected exactly when its category equals a given category other than "all" and its owner equals a given owner, where an absent or empty parameter selects everything |
| ReelsRoute.Filter | app/api/reels/route.ts:22 | the result holds every stored reel that meets all the filters, as often as it is stored, and only such reels |
| ReelsRoute.SortNewestFirst | app/api/reels/route.ts:22 | the result is newest first and a permutation of its input |
| ReelsRoute.StringifyAll | app/api/reels/route.ts:24-27 | one listed reel per input reel, each with its identifier as text |
| ReelsRoute.ListReels | app/api/reels/route.ts:4-33 | the listing answers 200 unless the database throws, and 500 otherwise; a 200 listing holds one entry per stored reel that meets every filter, each a stored reel with its identifier as text, newest first |
| ReelsRoute.PermutationListing | app/api/reels/route.ts:22-27 | any newest-first permutation of the matching reels, once stringified, lists exactly the matching reels, newest first |
| ReelsRoute.NoFilterListsEverything | app/api/reels/route.ts:14-22 | with no filter, every stored reel is listed |
| ReelsFeed.LikeUpdate | components/reels/reels-feed.tsx:73-77 | after a like answer the user is not in the dislikes, is in the likes exactly when the answer says liked, and is never in both lists; a like appends the user, and a removal keeps every other id with its multiplicity; the other fields are kept |
| ReelsFeed.DislikeUpdate | components/reels/reels-feed.tsx:106-112 | the mirror image of the like update, with the same multiplicity guarantees |
| ReelsFeed.UpdateWhere | components/reels/reels-feed.tsx:70-79 | only reels with the target identifier change; length and order are kept |
| ReelsFeed.HandleLike | components/reels/reels-feed.tsx:55-86 | with nobody signed in, no request is sent and nothing changes; only an OK answer changes the list, and each targeted reel becomes its like update |
| ReelsFeed.HandleDislike | components/reels/reels-feed.tsx:88-121 | the mirror image of the like handler: each targeted reel becomes its dislike update |
| ReelsFeed.LikeThenUnlikeRestores | components/reels/reels-feed.tsx:75-76 | a like followed by an unlike returns a reel the user had not engaged with unchanged |
| ReelsFeed.DislikeThenUndislikeRestores | components/reels/reels-feed.tsx:108-111 | a dislike followed by an un-dislike returns a reel the user had not engaged with unchanged |
| ReelsFeed.AddComment | components/reels/reels-feed.tsx:132-142 | the comment is appended to the selected reel only |
| ReelsFeed.AddCommentThenDropRestores | components/reels/reels-feed.tsx:132-142 | dropping the selected reel's last comment after adding one gives the list back |
| ReelsFeed.ScrollAsWritten | components/reels/reels-feed.tsx:42-53 | the index moves to every new index below the reel count, and to nothing else |
| ReelsFeed.Scroll | components/reels/reels-feed.tsx:50-52 | the index moves to every new index within the list, and to nothing else, so it stays within the list |
| ReelsFeed.ScrollAgreesOnNonNegative | components/reels/reels-feed.tsx:50 | the corrected guard agrees with the guard as written on every non-negative index |
| VideoPlayer.Indicator | components/reels/video-player.tsx:60-69 | the indicator shows like past +50, dislike past -50, and nothing at exactly 50 |
| VideoPlayer.Commit | components/reels/video-player.tsx:75-82 | like fires exactly past +100 and dislike exactly past -100; at most one fires |
| VideoPlayer.TouchStartAsWritten | components/reels/video-player.tsx:49-52 | touch start records the start position and starts dragging, and leaves the current position as it was |
| VideoPlayer.TouchMove | components/reels/video-player.tsx:54-70 | a move does nothing unless dragging; otherwise it records the position and sets the indicator |
| VideoPlayer.TouchEnd | components/reels/video-player.tsx:72-88 | touch end does nothing unless dragging; otherwise it commits by the displacement and resets the state |
| VideoPlayer.ActionAgreesWithIndicator | components/reels/video-player.tsx:60-82 | a committed action points the way the last indicator pointed |
| VideoPlayer.TapDislikesAsWritten | components/reels/video-player.tsx:72-80 | as written, a tap more than 100 pixels from the left edge commits a dislike |
| VideoPlayer.TouchStart | components/reels/video-player.tsx:49-52 | the corrected touch start also resets the current position, so a tap commits nothing |
| VideoPlayer.Step | components/reels/video-player.tsx:49-88 | only lifting the finger fires an action; a start records the start position, a move the current one, and an end commits by the displacement and resets |
| VideoPlayer.Drag | components/reels/video-player.tsx:49-70 | after a touch start and some moves the player is dragging from the start position, at the last position reached |
| VideoPlayer.GestureCommitsByLastPosition | components/reels/video-player.tsx:49-88 | for the player as written and for the corrected one, a gesture with at least one move commits by the displacement of the last position; with no move, the corrected player commits nothing and the one as written commits by 0 minus the start |
| AuthProvider.Mount | components/providers/auth-provider.tsx:26-27 | the provider starts with nobody signed in and loading |
| AuthProvider.CheckAuth | components/providers/auth-provider.tsx:35-61 | with no stored token, no request is sent; an OK answer sets the user; any other answer drops the token; loading ends in every case |
| AuthProvider.MeReplyOf | components/providers/auth-provider.tsx:49-51 | only an OK answer with a user counts as signed in |
| AuthProvider.AcceptCredentials | components/providers/auth-provider.tsx:63-105 | a successful login or signup stores the token and user and reports success; otherwise nothing changes |
| AuthProvider.CredentialReplyOf | components/providers/auth-provider.tsx:71-77 | only an OK answer with a token and user counts as success |
| AuthProvider.Logout | components/providers/auth-provider.tsx:107-111 | logout drops the token and the user and goes to /auth |
| AuthProvider.UpdateUser | components/providers/auth-provider.tsx:113-115 | the user is replaced and nothing else changes |
| AuthProvider.AuthPageGuard | components/providers/auth-provider.tsx:118-122 | once loading is over, a signed-in user on /auth is sent to "/" |
| AuthProvider.ProtectedGuard | components/providers/auth-provider.tsx:125-129 | once loading is over, a signed-out user outside /auth and /api/ is sent to /auth |
| AuthProvider.GuardsExclusiveAndSettled | components/providers/auth-provider.tsx:117-129 | the two guards never fire together, and neither fires at the page the other redirects to |
| AuthProvider.SignedOutIsSentToSignIn | components/providers/auth-provider.tsx:37-60 | after a start-up check without a valid session, a protected page redirects to /auth |
| Flows.SignupThenLogin | app/api/auth/login/route.ts:35-57 | after signup, logging in with the same password and the e-mail in any letter case succeeds for the new account |
| Flows.MeAcceptsIssuedToken | app/api/auth/me/route.ts:16-52 | the "current user" route answers an issued token with the user it was issued for |
| Flows.LoginTokenIdentifiesUser | app/api/auth/login/route.ts:51 | the login token makes the "current user" route answer with the same user identifier |
| Flows.LoginSurvivesReload | components/providers/auth-provider.tsx:35-61 | after login and a page reload, the client is signed in as the same user |
| Flows.ReloadSignsOutAsWritten | components/providers/auth-provider.tsx:35-61 | with the "current user" route as written, a reload drops the stored token and leaves the client signed out |
| Flows.UploadThenListed | app/api/reels/route.ts:14-22 | an uploaded reel appears when its owner's reels of its category are listed |

## Left out

- The server-side like, dislike and comment routes, reel edit and delete, video streaming and the next-auth routes are not part of this model. For the feed, only the client-side update of the list is modelled.
- Storing the video is one step that records the blob and its metadata. Streaming the bytes and file contents are not modelled.
- JWT signing and verification, and bcrypt hashing and comparison, are parameters. The cross-route lemmas assume a verifier that accepts what the signer issued and a comparison that accepts a password against its hash.
- The cross-route lemmas about the "current user" route use its corrected projection (`MeRoute.Me`). The route as written is `MeRoute.MeAsWritten`; see Findings.
- Tokens.Authenticate: a verified token whose payload has no user id is not modelled; the verifier returns the user id directly.
- Text.ToLower: case mapping covers the ASCII letters only, which is weaker than JavaScript's full Unicode `toLowerCase`.
- Types.ParseObjectId: only the 24-hex-digit text form of an identifier is accepted. Other inputs the driver's constructor may accept are not modelled.
- ReelsRoute.SortNewestFirst: the database leaves the order of reels with equal dates open. The model keeps store order, and the contracts promise only newest-first order and a permutation.
- JSON fields holding a number, array or object, rather than a string or nothing, are not modelled.
- Timestamps are integers. Date formatting, cookies, console logging, toasts and share or clipboard calls are left out.
- Floating-point rounding is not modelled. Touch coordinates are reals, and the scroll index is an integer input in place of `Math.round(scrollTop / itemHeight)`.
- React state is modelled as one transition per handler. Each update applies to the list at the time the answer arrives.
- The feed's reel fetch and `handleComment`, which opens the comment dialog, are UI plumbing and are left out. So are the player's play/pause effect and feedback timers.

## Findings

| source | as written | input that shows it | evidently intended | confidence | as-written member | corrected member |
|---|---|---|---|---|---|---|
| components/reels/video-player.tsx:49-52 | touch start sets `startX` but leaves `currentX` at its reset value 0 | finger down at x = 200 and lifted without moving: diff = 0 - 200 < -100, so a dislike fires | a tap commits nothing: `currentX` starts at `startX` | medium, not executed | VideoPlayer.TapDislikesAsWritten | VideoPlayer.TouchStart |
| app/api/auth/me/route.ts:27-38 | the lookup's projection sets `password: 0` next to `username: 1`, `email: 1`, `bio: 1` and `createdAt: 1` | any request with a valid token: MongoDB refuses a projection that mixes exclusion and inclusion, the route answers 500, and the client drops its token at the next reload | an inclusion-only projection, so the stored user is answered | medium (rests on MongoDB's projection rules), not executed | Flows.ReloadSignsOutAsWritten | MeRoute.Me |
| components/reels/reels-feed.tsx:50 | the guard checks only `newIndex < reels.length` | an elastic overscroll of more than half a reel's height above the first reel rounds to -1 with 3 reels and index 0; the index becomes -1 and no reel is in view | the index stays between 0 and the reel count | low, not executed | ReelsFeed.ScrollAsWrittenAcceptsNegative | ReelsFeed.Scroll |

=== FILE: auth_provider.dfy ===
/** The client's session provider: the stored token, the signed-in user and
    the loading flag, driven by the start-up auth check, login, signup and
    logout, and the two redirect rules that guard the pages. */
module AuthProvider {
  import opened Base
  import opened Text
  import opened Types
  import opened Http

  /** The stored token (local storage), the signed-in user, and whether the
      start-up check is still running. */
  datatype Session = Session(token: Option<string>, user: Option<PublicUser>, loading: bool)

  /** The provider as it mounts: whatever token is stored, nobody signed in, loading. */
  function Mount(stored: Option<string>): (s: Session)
    ensures s.user.None? && s.loading && s.token == stored
  {
    Session(stored, None, true)
  }

  /** The outcome of the `/api/auth/me` request. */
  datatype MeReply = MeOk(user: PublicUser) | MeRejected | MeFailed

  /** The session afterwards, and whether a request was sent. */
  datatype CheckOutcome = CheckOutcome(session: Session, requested: bool)

  /** `checkAuth`. */
  function CheckAuth(s: Session, reply: MeReply): (r: CheckOutcome)
    ensures !r.session.loading
    ensures !Truthy(s.token) ==> r == CheckOutcome(s.(loading := false), false)
    ensures Truthy(s.token) ==> r.requested
    ensures Truthy(s.token) && reply.MeOk? ==> r.session == Session(s.token, Some(reply.user), false)
    ensures Truthy(s.token) && !reply.MeOk? ==> r.session == Session(None, s.user, false)
  {
    if !Truthy(s.token) then CheckOutcome(s.(loading := false), false)
    else
      match reply
      case MeOk(u) => CheckOutcome(s.(user := Some(u), loading := false), true)
      case _ => CheckOutcome(s.(token := None, loading := false), true)
  }

  /** How the client reads an answer of the `me` route. */
  function MeReplyOf(resp: Response): (m: MeReply)
    ensures m.MeOk? <==> resp.status == OK && resp.body.UserBody?
    ensures m.MeOk? ==> m.user == resp.body.user
  {
    if resp.status == OK && resp.body.UserBody? then MeOk(resp.body.user) else MeRejected
  }

  /** The outcome of a login or signup request. */
  datatype CredentialReply = Accepted(token: string, user: PublicUser) | Refused | CredentialFailed

  /** `login` and `signup`, which treat the answer alike: an OK answer stores
      the token and the user and reports success; anything else reports
      failure and leaves the session as it was. */
  function AcceptCredentials(s: Session, reply: CredentialReply): (r: (Session, bool))
    ensures r.1 <==> reply.Accepted?
    ensures r.1 ==> r.0 == s.(token := Some(reply.token), user := Some(reply.user))
    ensures !r.1 ==> r.0 == s
    ensures r.0.loading == s.loading
  {
    match reply
    case Accepted(t, u) => (s.(token := Some(t), user := Some(u)), true)
    case _ => (s, false)
  }

  /** How the client reads an answer of the login or signup route. */
  function CredentialReplyOf(resp: Response): (c: CredentialReply)
    ensures c.Accepted? <==> resp.status == OK && resp.body.SessionBody?
    ensures c.Accepted? ==> c.token == resp.body.token && c.user == resp.body.user
  {
    if resp.status == OK && resp.body.SessionBody? then Accepted(resp.body.token, resp.body.user) else Refused
  }

  const AUTH_PAGE: string := "/auth"
  const HOME_PAGE: string := "/"
  const API_PREFIX: string := "/api/"

  /** `logout`: forget the token and the user, then go to the sign-in page. */
  function Logout(s: Session): (r: (Session, string))
    ensures r.0.token.None? && r.0.user.None? && r.0.loading == s.loading
    ensures r.1 == AUTH_PAGE
  {
    (s.(token := None, user := None), AUTH_PAGE)
  }

  /** `updateUser`. */
  function UpdateUser(s: Session, u: PublicUser): (r: Session)
    ensures r.user == Some(u) && r.token == s.token && r.loading == s.loading
  {
    s.(user := Some(u))
  }

  /** The first guard: a signed-in user on the sign-in page goes home. */
  function AuthPageGuard(s: Session, path: string): (r: Option<string>)
    ensures r.Some? <==> !s.loading && s.user.Some? && path == AUTH_PAGE
    ensures r.Some? ==> r.value == HOME_PAGE
  {
    if !s.loading && s.user.Some? && path == AUTH_PAGE then Some(HOME_PAGE) else None
  }

  /** The second guard: a signed-out user anywhere but the sign-in page or
      the API goes to the sign-in page. */
  function ProtectedGuard(s: Session, path: string): (r: Option<string>)
    ensures r.Some? <==> !s.loading && s.user.None? && path != AUTH_PAGE && !StartsWith(path, API_PREFIX)
    ensures r.Some? ==> r.value == AUTH_PAGE
  {
    if !s.loading && s.user.None? && path != AUTH_PAGE && !StartsWith(path, API_PREFIX) then Some(AUTH_PAGE)
    else None
  }

  /** The two guards never fire together, and wherever one sends the user
      neither fires again: the redirects cannot loop. */
  lemma GuardsExclusiveAndSettled(s: Session, path: string)
    ensures AuthPageGuard(s, path).None? || ProtectedGuard(s, path).None?
    ensures AuthPageGuard(s, path).Some? ==>
      var t := AuthPageGuard(s, path).value; AuthPageGuard(s, t).None? && ProtectedGuard(s, t).None?
    ensures ProtectedGuard(s, path).Some? ==>
      var t := ProtectedGuard(s, path).value; AuthPageGuard(s, t).None? && ProtectedGuard(s, t).None?
  {
  }

  /** Once the start-up check is over, a signed-out session on any page
      outside the sign-in page and the API is sent to sign in. */
  lemma SignedOutIsSentToSignIn(stored: Option<string>, reply: MeReply, path: string)
    requires !(Truthy(stored) && reply.MeOk?)
    requires path != AUTH_PAGE && !StartsWith(path, API_PREFIX)
    ensures ProtectedGuard(CheckAuth(Mount(stored), reply).session, path) == Some(AUTH_PAGE)
  {
  }
}

=== FILE: base.dfy ===
/** Small generic building blocks shared by the route handlers and the client
    state updates: an optional value, the "first document that matches" lookup
    that a document store's `findOne` performs, and the `filter(x => x !== v)`
    idiom the client uses on id lists. */
module Base {

  /** A value that may be absent (`null` / `undefined` in TypeScript). */
  datatype Option<T> = None | Some(value: T) {

    /** The value, or `default` when absent. */
    function GetOr(default: T): T {
      match this
      case Some(v) => v
      case None => default
    }
  }

  /** Index of the first element of `s` that satisfies `p`: the document a
      `findOne` returns when several documents match its filter. */
  function FindFirst<T>(s: seq<T>, p: T -> bool): (r: Option<nat>)
    ensures r.Some? ==> r.value < |s| && p(s[r.value])
    ensures r.Some? ==> forall j :: 0 <= j < r.value ==> !p(s[j])
    ensures r.None? <==> forall j :: 0 <= j < |s| ==> !p(s[j])
  {
    if |s| == 0 then None
    else if p(s[0]) then Some(0)
    else
      match FindFirst(s[1..], p)
      case None => None
      case Some(k) => Some(k + 1)
  }

  /** `s.filter(y => y !== x)`: every occurrence of `x` removed, order kept. */
  function RemoveAll<T(==)>(s: seq<T>, x: T): (r: seq<T>)
    ensures x !in r
    ensures forall i :: 0 <= i < |s| && s[i] != x ==> s[i] in r
    ensures forall i :: 0 <= i < |r| ==> r[i] in s
    ensures |r| <= |s|
    ensures x !in s ==> r == s
    ensures multiset(r) == multiset(s)[x := 0]
  {
    if |s| == 0 then []
    else
      assert s == [s[0]] + s[1..];
      if s[0] == x then RemoveAll(s[1..], x)
      else [s[0]] + RemoveAll(s[1..], x)
  }

  /** Removal works piecewise: the kept elements of `s + t` are the kept
      elements of `s` followed by those of `t`, so the order is kept. */
  lemma {:induction false} RemoveAllConcat<T>(s: seq<T>, t: seq<T>, x: T)
    ensures RemoveAll(s + t, x) == RemoveAll(s, x) + RemoveAll(t, x)
  {
    if |s| > 0 {
      assert (s + t)[0] == s[0];
      assert (s + t)[1..] == s[1..] + t;
      RemoveAllConcat(s[1..], t, x);
    } else {
      assert s + t == t;
    }
  }

  /** On a single element removal keeps it exactly when it differs from `x`;
      with `RemoveAllConcat` this fixes the result for every list. */
  lemma RemoveAllSingle<T>(y: T, x: T)
    ensures RemoveAll([y], x) == if y == x then [] else [y]
  {
    assert [y][1..] == [];
  }

  /** Appending `x` and then removing it is the same as only removing it. */
  lemma RemoveAllAppended<T>(s: seq<T>, x: T)
    ensures RemoveAll(s + [x], x) == RemoveAll(s, x)
  {
    RemoveAllConcat(s, [x], x);
    RemoveAllSingle(x, x);
    assert RemoveAll(s, x) + [] == RemoveAll(s, x);
  }
}

=== FILE: flows.dfy ===
/** Properties that span several routes and the client: a fresh account can
    log in, a token from login identifies its user to the `me` route and
    keeps the client signed in across a reload, and an uploaded reel shows
    up in its owner's listing. */
module Flows {
  import opened Base
  import opened Text
  import opened Types
  import opened Http
  import opened Tokens
  import opened SignupRoute
  import opened LoginRoute
  import opened MeRoute
  import opened UploadRoute
  import opened ReelsRoute
  import opened AuthProvider

  /** After a successful signup, logging in with the same password and the
      e-mail in any letter case succeeds and names the new account. */
  lemma SignupThenLogin(f: SignupFields, env: SignupEnv, crypto: Crypto, tokens: TokenService, email: string)
    requires HashMatches(crypto)
    requires Signup(Parsed(f), env, crypto, tokens).response.status == OK
    requires email != "" && ToLower(email) == ToLower(f.email.value)
    ensures var users := Signup(Parsed(f), env, crypto, tokens).users;
      Login(Parsed(LoginFields(Some(email), f.password)), LoginEnv(users, NoFault), crypto, tokens)
        == Response(OK, SessionBody(tokens.sign(IdString(env.newId)), LoginView(NewUser(f, env, crypto))))
  {
  }

  /** The `me` route answers a token the signer issued for a stored
      identifier with that user. */
  lemma MeAcceptsIssuedToken(id: ObjectId, users: seq<StoredUser>, tokens: TokenService, now: int)
    requires RoundTrips(tokens)
    requires IsCanonical(id)
    requires exists u :: u in users && u.id == id
    ensures var answer := Me(Some(BEARER + tokens.sign(IdString(id))), MeEnv(users, NoFault, now), tokens);
      answer.status == OK && answer.body.UserBody? && answer.body.user.id == IdString(id)
  {
  }

  /** The token a login hands out makes the `me` route answer with the same
      user identifier, provided the verifier accepts what the signer issued
      and stored identifiers are canonical. */
  lemma LoginTokenIdentifiesUser(
    f: LoginFields, env: LoginEnv, crypto: Crypto, tokens: TokenService, now: int)
    requires RoundTrips(tokens)
    requires forall u :: u in env.users ==> IsCanonical(u.id)
    requires Login(Parsed(f), env, crypto, tokens).status == OK
    ensures var session := Login(Parsed(f), env, crypto, tokens).body;
      var answer := Me(Some(BEARER + session.token), MeEnv(env.users, NoFault, now), tokens);
      && session.token != ""
      && answer.status == OK
      && answer.body.user.id == session.user.id
  {
  }

  /** A client that logged in and reloads the page is still signed in as the
      same user once the start-up check has asked the `me` route. */
  lemma LoginSurvivesReload(
    f: LoginFields, env: LoginEnv, crypto: Crypto, tokens: TokenService, now: int, before: Session)
    requires RoundTrips(tokens)
    requires forall u :: u in env.users ==> IsCanonical(u.id)
    requires Login(Parsed(f), env, crypto, tokens).status == OK
    ensures var (signedIn, ok) := AcceptCredentials(before, CredentialReplyOf(Login(Parsed(f), env, crypto, tokens)));
      var token := signedIn.token.value;
      var reloaded := CheckAuth(Mount(signedIn.token),
                                MeReplyOf(Me(Some(BEARER + token), MeEnv(env.users, NoFault, now), tokens)));
      && ok
      && reloaded.requested && !reloaded.session.loading
      && reloaded.session.token == signedIn.token
      && reloaded.session.user.Some?
      && reloaded.session.user.value.id == signedIn.user.value.id
  {
  }

  /** With the `me` route as written, a signed-in client that reloads the
      page is signed out: the route never answers with a user, so the
      start-up check drops the stored token. */
  lemma ReloadSignsOutAsWritten(token: string, users: seq<StoredUser>, fault: Fault, now: int, tokens: TokenService)
    requires token != ""
    ensures var reloaded := CheckAuth(Mount(Some(token)),
                                      MeReplyOf(MeAsWritten(Some(BEARER + token), MeEnv(users, fault, now), tokens)));
      && reloaded.requested
      && reloaded.session == Session(None, None, false)
  {
  }

  /** A reel that uploaded successfully is listed when its owner's reels of
      its category are asked for. */
  lemma UploadThenListed(header: Option<string>, form: Form, env: UploadEnv, tokens: TokenService)
    requires Upload(header, form, env, tokens).response.status == OK
    ensures var r := Upload(header, form, env, tokens);
      var reel := r.reels[|env.reels|];
      Stringify(reel) in ListReels(ListParams(Some(reel.category), Some(reel.userId)), ListEnv(r.reels, NoFault)).body.reels
  {
  }
}

=== FILE: http.dfy ===
/** The HTTP side of the route handlers: the response statuses and bodies
    they produce, the request bodies they parse, and the exceptions a
    handler's collaborators (database, hashing, signing) can throw. */
module Http {
  import opened Base
  import opened Types

  const OK: int := 200
  const BAD_REQUEST: int := 400
  const UNAUTHORIZED: int := 401
  const NOT_FOUND: int := 404
  const SERVER_ERROR: int := 500

  /** `details` of the signup "Missing required fields" answer: one message
      per missing field, `null` for each present one. */
  datatype FieldDetails = FieldDetails(username: Option<string>, email: Option<string>, password: Option<string>)

  datatype Body =
    | ErrorBody(error: string)
    | MissingFieldsBody(error: string, details: FieldDetails)
    | SessionBody(token: string, user: PublicUser)
    | UserBody(user: PublicUser)
    | ReelBody(reel: ApiReel)
    | ReelListBody(reels: seq<ApiReel>)

  datatype Response = Response(status: int, body: Body)

  function Error(status: int, message: string): Response {
    Response(status, ErrorBody(message))
  }

  const INTERNAL_ERROR: Response := Error(SERVER_ERROR, "Internal server error")

  /** A JSON request body: one that does not parse, the literal `null`
      (destructuring it throws), or an object whose fields were read. */
  datatype JsonBody<F> = Unparseable | NullBody | Parsed(fields: F)

  /** JavaScript truthiness of an optional string field: present and non-empty. */
  predicate Truthy(f: Option<string>) {
    f.Some? && f.value != ""
  }

  /** What a thrown error is: a database server error with its code, or anything else. */
  datatype ErrorKind = MongoServerError(code: int) | OtherError

  const DUPLICATE_KEY: int := 11000

  /** The points in a handler where a collaborator can throw. */
  datatype Step =
    | Connect | FindUser | HashPassword | InsertUser | ComparePassword | SignToken
    | StoreVideo | InsertReel | FindReels

  /** Whether, and where, a request's collaborators throw. A fault at a step
      the handler never reaches has no effect. */
  datatype Fault = NoFault | Throws(at: Step, err: ErrorKind) {
    predicate At(s: Step) { Throws? && at == s }
  }
}

=== FILE: login_route.dfy ===
/** `POST /api/auth/login`: the credential check that answers an unknown
    e-mail and a wrong password alike, and the password-free answer. */
module LoginRoute {
  import opened Base
  import opened Text
  import opened Types
  import opened Http
  import opened Tokens

  datatype LoginFields = LoginFields(email: Option<string>, password: Option<string>)

  /** The `users` collection and where, if anywhere, a collaborator throws. */
  datatype LoginEnv = LoginEnv(users: seq<StoredUser>, fault: Fault)

  const INVALID_CREDENTIALS: Response := Error(UNAUTHORIZED, "Invalid credentials")

  /** The user object of the login answer: identifier, username, e-mail and
      bio (empty when missing); no password and no creation date. */
  function LoginView(u: StoredUser): (p: PublicUser)
    ensures p.id == IdString(u.id) && p.username == u.username && p.email == u.email
    ensures p.createdAt.None?
    ensures u.bio.None? ==> p.bio == ""
    ensures u.bio.Some? ==> p.bio == u.bio.value
  {
    PublicUser(IdString(u.id), u.username, u.email, BioOrEmpty(u.bio), None)
  }

  /** The document the e-mail lookup finds: the first whose stored e-mail
      equals the submitted one lower-cased. */
  function LookupByEmail(users: seq<StoredUser>, email: string): (r: Option<nat>)
    ensures r.Some? ==> r.value < |users| && users[r.value].email == ToLower(email)
    ensures r.None? <==> forall u :: u in users ==> u.email != ToLower(email)
  {
    var r := FindFirst(users, (u: StoredUser) => u.email == ToLower(email));
    assert r.None? ==> forall u :: u in users ==> u.email != ToLower(email) by {
      if r.None? {
        forall u | u in users ensures u.email != ToLower(email) {
          var j :| 0 <= j < |users| && users[j] == u;
        }
      }
    }
    r
  }

  /** The route handler. */
  function Login(body: JsonBody<LoginFields>, env: LoginEnv, crypto: Crypto, tokens: TokenService): (r: Response)
    ensures body.Unparseable? ==> r == Error(BAD_REQUEST, "Invalid request body")
    ensures body.Parsed? && !(Truthy(body.fields.email) && Truthy(body.fields.password)) ==>
      r == Error(BAD_REQUEST, "Missing email or password")
    ensures body.NullBody? ==> r == INTERNAL_ERROR
    ensures body.Parsed? && Truthy(body.fields.email) && Truthy(body.fields.password) ==>
      var email, password := body.fields.email.value, body.fields.password.value;
      var found := LookupByEmail(env.users, email);
      && (env.fault.At(Connect) || env.fault.At(FindUser) ==> r == INTERNAL_ERROR)
      && (found.None? && !env.fault.At(Connect) && !env.fault.At(FindUser) ==> r == INVALID_CREDENTIALS)
      && (found.Some? && env.fault.At(ComparePassword) ==> r == INTERNAL_ERROR)
      && ((found.Some? && !env.fault.At(Connect) && !env.fault.At(FindUser) && !env.fault.At(ComparePassword)
           && !crypto.compare(password, env.users[found.value].password)) ==> r == INVALID_CREDENTIALS)
      && ((found.Some? && crypto.compare(password, env.users[found.value].password) && env.fault.At(SignToken))
           ==> r == INTERNAL_ERROR)
    ensures r.status == UNAUTHORIZED ==> r == INVALID_CREDENTIALS
    ensures r.status == SERVER_ERROR ==> r == INTERNAL_ERROR
    ensures r.status == OK ==>
      && body.Parsed? && Truthy(body.fields.email) && Truthy(body.fields.password)
      && exists u :: u in env.users && u.email == ToLower(body.fields.email.value)
           && crypto.compare(body.fields.password.value, u.password)
           && r.body == SessionBody(tokens.sign(IdString(u.id)), LoginView(u))
  {
    match body
    case Unparseable => Error(BAD_REQUEST, "Invalid request body")
    case NullBody => INTERNAL_ERROR
    case Parsed(f) =>
      if !(Truthy(f.email) && Truthy(f.password)) then Error(BAD_REQUEST, "Missing email or password")
      else if env.fault.At(Connect) || env.fault.At(FindUser) then INTERNAL_ERROR
      else
        match LookupByEmail(env.users, f.email.value)
        case None => INVALID_CREDENTIALS
        case Some(i) =>
          var u := env.users[i];
          if env.fault.At(ComparePassword) then INTERNAL_ERROR
          else if !crypto.compare(f.password.value, u.password) then INVALID_CREDENTIALS
          else if env.fault.At(SignToken) then INTERNAL_ERROR
          else Response(OK, SessionBody(tokens.sign(IdString(u.id)), LoginView(u)))
  }

  /** An e-mail nobody registered and a registered e-mail with the wrong
      password get the very same answer, so the answer does not reveal which
      e-mails are registered. */
  lemma UnknownEmailAndWrongPasswordLookAlike(
    f: LoginFields, unknown: LoginEnv, known: LoginEnv, crypto: Crypto, tokens: TokenService)
    requires Truthy(f.email) && Truthy(f.password)
    requires unknown.fault.NoFault? && known.fault.NoFault?
    requires forall u :: u in unknown.users ==> u.email != ToLower(f.email.value)
    requires forall u :: u in known.users && u.email == ToLower(f.email.value) ==> !crypto.compare(f.password.value, u.password)
    ensures Login(Parsed(f), unknown, crypto, tokens) == Login(Parsed(f), known, crypto, tokens) == INVALID_CREDENTIALS
  {
  }

  /** Login succeeds exactly when the first user with the lower-cased e-mail
      accepts the password and nothing throws. */
  lemma LoginSucceedsIff(f: LoginFields, env: LoginEnv, crypto: Crypto, tokens: TokenService)
    requires Truthy(f.email) && Truthy(f.password)
    ensures Login(Parsed(f), env, crypto, tokens).status == OK <==>
      && !env.fault.At(Connect) && !env.fault.At(FindUser) && !env.fault.At(ComparePassword) && !env.fault.At(SignToken)
      && LookupByEmail(env.users, f.email.value).Some?
      && crypto.compare(f.password.value, env.users[LookupByEmail(env.users, f.email.value).value].password)
  {
  }
}

=== FILE: me_route.dfy ===
/** `GET /api/auth/me`: the bearer guard, the lookup of the token's user and
    the password-free answer. */
module MeRoute {
  import opened Base
  import opened Types
  import opened Http
  import opened Tokens

  /** The `users` collection, where (if anywhere) a collaborator throws, and
      the clock that stands in for a missing creation date. */
  datatype MeEnv = MeEnv(users: seq<StoredUser>, fault: Fault, now: int)

  /** The user object of the answer: no password, bio empty when missing,
      creation date "now" when missing. */
  function MeView(u: StoredUser, now: int): (p: PublicUser)
    ensures p.id == IdString(u.id) && p.username == u.username && p.email == u.email
    ensures p.createdAt.Some?
    ensures u.bio.None? ==> p.bio == ""
    ensures u.createdAt.None? ==> p.createdAt == Some(now)
    ensures u.bio.Some? ==> p.bio == u.bio.value
    ensures u.createdAt.Some? ==> p.createdAt == u.createdAt
  {
    PublicUser(IdString(u.id), u.username, u.email, BioOrEmpty(u.bio), Some(u.createdAt.GetOr(now)))
  }

  /** The document with the given identifier, if any. */
  function LookupById(users: seq<StoredUser>, id: ObjectId): (r: Option<nat>)
    ensures r.Some? ==> r.value < |users| && users[r.value].id == id
    ensures r.None? <==> forall u :: u in users ==> u.id != id
  {
    var r := FindFirst(users, (u: StoredUser) => u.id == id);
    assert r.None? ==> forall u :: u in users ==> u.id != id by {
      if r.None? {
        forall u | u in users ensures u.id != id {
          var j :| 0 <= j < |users| && users[j] == u;
        }
      }
    }
    r
  }

  /** The route handler. */
  function Me(header: Option<string>, env: MeEnv, tokens: TokenService): (r: Response)
    ensures !Authenticate(header, tokens).Authenticated? ==> r == Rejection(Authenticate(header, tokens))
    ensures r.status == NOT_FOUND ==>
      && Authenticate(header, tokens).Authenticated?
      && ParseObjectId(Authenticate(header, tokens).userId).Some?
      && forall u :: u in env.users ==> u.id != ParseObjectId(Authenticate(header, tokens).userId).value
    ensures r.status == OK ==>
      && Authenticate(header, tokens).Authenticated?
      && exists u :: u in env.users && ParseObjectId(Authenticate(header, tokens).userId) == Some(u.id)
           && r.body == UserBody(MeView(u, env.now))
    ensures r.status in {OK, UNAUTHORIZED, NOT_FOUND, SERVER_ERROR}
    ensures Authenticate(header, tokens).Authenticated?
      && (env.fault.At(Connect) || ParseObjectId(Authenticate(header, tokens).userId).None? || env.fault.At(FindUser))
      ==> r == INTERNAL_ERROR
    ensures Authenticate(header, tokens).Authenticated?
      && ParseObjectId(Authenticate(header, tokens).userId).Some?
      && !env.fault.At(Connect) && !env.fault.At(FindUser)
      ==> var oid := ParseObjectId(Authenticate(header, tokens).userId).value;
          && ((forall u :: u in env.users ==> u.id != oid) ==> r == Error(NOT_FOUND, "User not found"))
          && ((exists u :: u in env.users && u.id == oid) ==> r.status == OK)
  {
    match Authenticate(header, tokens)
    case NoToken => Rejection(NoToken)
    case InvalidToken => Rejection(InvalidToken)
    case Authenticated(userId) =>
      if env.fault.At(Connect) then INTERNAL_ERROR
      else
        match ParseObjectId(userId)
        case None => INTERNAL_ERROR
        case Some(oid) =>
          if env.fault.At(FindUser) then INTERNAL_ERROR
          else
            match LookupById(env.users, oid)
            case None => Error(NOT_FOUND, "User not found")
            case Some(i) => Response(OK, UserBody(MeView(env.users[i], env.now)))
  }

  /** The error code MongoDB reports for a projection that excludes one field
      while including others ("Cannot do exclusion on field ... in inclusion
      projection"). */
  const MIXED_PROJECTION: int := 31254

  /** The route as written. The lookup's projection sets `password: 0` next
      to `username: 1`, `email: 1` and so on; the database refuses to mix the
      two, so every lookup the handler reaches throws. */
  function MeAsWritten(header: Option<string>, env: MeEnv, tokens: TokenService): (r: Response)
    ensures !Authenticate(header, tokens).Authenticated? ==> r == Rejection(Authenticate(header, tokens))
    ensures Authenticate(header, tokens).Authenticated? ==> r == INTERNAL_ERROR
  {
    var fault := if env.fault.At(Connect) then env.fault else Throws(FindUser, MongoServerError(MIXED_PROJECTION));
    Me(header, env.(fault := fault), tokens)
  }

  /** A token the verifier rejects is answered without looking at the
      database: the answer is the same whatever the collection holds. */
  lemma RejectedTokenSkipsDatabase(header: Option<string>, env1: MeEnv, env2: MeEnv, tokens: TokenService)
    requires !Authenticate(header, tokens).Authenticated?
    ensures Me(header, env1, tokens) == Me(header, env2, tokens)
  {
  }
}

=== FILE: reels_feed.dfy ===
/** The reel feed's client-side state updates: the like and dislike answers
    folded into the list of reels, a new comment appended to the selected
    reel, and the index of the reel in view. */
module ReelsFeed {
  import opened Base
  import opened Types

  /** The server's answer to a like or dislike request: an OK answer with
      the resulting flag, a non-OK answer, or a failed request. */
  datatype ToggleReply = ReplyOk(flag: bool) | ReplyNotOk | ReplyFailed

  /** The reels afterwards, and whether a request was sent at all. */
  datatype FeedUpdate = FeedUpdate(reels: seq<ApiReel>, requested: bool)

  /** A user is in at most one of a reel's two engagement lists. */
  predicate Exclusive(r: ApiReel, uid: string) {
    !(uid in r.likes && uid in r.dislikes)
  }

  /** One reel after a like answer: the user leaves the dislikes, and joins
      the likes (appended) or leaves them according to the flag. */
  function LikeUpdate(r: ApiReel, uid: string, isLiked: bool): (r': ApiReel)
    ensures uid !in r'.dislikes
    ensures uid in r'.likes <==> isLiked
    ensures Exclusive(r', uid)
    ensures isLiked ==> r'.likes == r.likes + [uid]
    ensures !isLiked ==> multiset(r'.likes) == multiset(r.likes)[uid := 0]
    ensures multiset(r'.dislikes) == multiset(r.dislikes)[uid := 0]
    ensures forall i :: 0 <= i < |r.likes| && r.likes[i] != uid ==> r.likes[i] in r'.likes
    ensures forall i :: 0 <= i < |r.dislikes| && r.dislikes[i] != uid ==> r.dislikes[i] in r'.dislikes
    ensures r'.(likes := r.likes, dislikes := r.dislikes) == r
  {
    r.(likes := if isLiked then r.likes + [uid] else RemoveAll(r.likes, uid),
       dislikes := RemoveAll(r.dislikes, uid))
  }

  /** One reel after a dislike answer: the mirror image of `LikeUpdate`. */
  function DislikeUpdate(r: ApiReel, uid: string, isDisliked: bool): (r': ApiReel)
    ensures uid !in r'.likes
    ensures uid in r'.dislikes <==> isDisliked
    ensures Exclusive(r', uid)
    ensures isDisliked ==> r'.dislikes == r.dislikes + [uid]
    ensures !isDisliked ==> multiset(r'.dislikes) == multiset(r.dislikes)[uid := 0]
    ensures multiset(r'.likes) == multiset(r.likes)[uid := 0]
    ensures forall i :: 0 <= i < |r.likes| && r.likes[i] != uid ==> r.likes[i] in r'.likes
    ensures forall i :: 0 <= i < |r.dislikes| && r.dislikes[i] != uid ==> r.dislikes[i] in r'.dislikes
    ensures r'.(likes := r.likes, dislikes := r.dislikes) == r
  {
    r.(dislikes := if isDisliked then r.dislikes + [uid] else RemoveAll(r.dislikes, uid),
       likes := RemoveAll(r.likes, uid))
  }

  /** `reels.map(reel => reel._id === reelId ? update(reel) : reel)`. */
  function UpdateWhere(reels: seq<ApiReel>, reelId: string, update: ApiReel -> ApiReel): (r: seq<ApiReel>)
    ensures |r| == |reels|
    ensures forall i :: 0 <= i < |reels| && reels[i].id != reelId ==> r[i] == reels[i]
    ensures forall i :: 0 <= i < |reels| && reels[i].id == reelId ==> r[i] == update(reels[i])
  {
    seq(|reels|, i requires 0 <= i < |reels| => if reels[i].id == reelId then update(reels[i]) else reels[i])
  }

  /** `handleLike`: without a signed-in user nothing is sent and nothing
      changes; otherwise only an OK answer changes the list. */
  function HandleLike(user: Option<PublicUser>, reels: seq<ApiReel>, reelId: string, reply: ToggleReply): (r: FeedUpdate)
    ensures user.None? ==> r == FeedUpdate(reels, false)
    ensures user.Some? ==> r.requested
    ensures !reply.ReplyOk? ==> r.reels == reels
    ensures |r.reels| == |reels|
    ensures forall i :: 0 <= i < |reels| && reels[i].id != reelId ==> r.reels[i] == reels[i]
    ensures user.Some? && reply.ReplyOk? ==> forall i :: 0 <= i < |reels| && reels[i].id == reelId ==>
      && r.reels[i].id == reelId
      && user.value.id !in r.reels[i].dislikes
      && (user.value.id in r.reels[i].likes <==> reply.flag)
      && Exclusive(r.reels[i], user.value.id)
    ensures user.Some? && reply.ReplyOk? ==> forall i :: 0 <= i < |reels| && reels[i].id == reelId ==>
      r.reels[i] == LikeUpdate(reels[i], user.value.id, reply.flag)
  {
    if user.None? then FeedUpdate(reels, false)
    else if !reply.ReplyOk? then FeedUpdate(reels, true)
    else FeedUpdate(UpdateWhere(reels, reelId, (x: ApiReel) => LikeUpdate(x, user.value.id, reply.flag)), true)
  }

  /** `handleDislike`: the mirror image of `HandleLike`. */
  function HandleDislike(user: Option<PublicUser>, reels: seq<ApiReel>, reelId: string, reply: ToggleReply): (r: FeedUpdate)
    ensures user.None? ==> r == FeedUpdate(reels, false)
    ensures user.Some? ==> r.requested
    ensures !reply.ReplyOk? ==> r.reels == reels
    ensures |r.reels| == |reels|
    ensures forall i :: 0 <= i < |reels| && reels[i].id != reelId ==> r.reels[i] == reels[i]
    ensures user.Some? && reply.ReplyOk? ==> forall i :: 0 <= i < |reels| && reels[i].id == reelId ==>
      && r.reels[i].id == reelId
      && user.value.id !in r.reels[i].likes
      && (user.value.id in r.reels[i].dislikes <==> reply.flag)
      && Exclusive(r.reels[i], user.value.id)
    ensures user.Some? && reply.ReplyOk? ==> forall i :: 0 <= i < |reels| && reels[i].id == reelId ==>
      r.reels[i] == DislikeUpdate(reels[i], user.value.id, reply.flag)
  {
    if user.None? then FeedUpdate(reels, false)
    else if !reply.ReplyOk? then FeedUpdate(reels, true)
    else FeedUpdate(UpdateWhere(reels, reelId, (x: ApiReel) => DislikeUpdate(x, user.value.id, reply.flag)), true)
  }

  /** Liking and then un-liking a reel the user had not engaged with gives
      the reel back unchanged. */
  lemma LikeThenUnlikeRestores(r: ApiReel, uid: string)
    requires uid !in r.likes && uid !in r.dislikes
    ensures LikeUpdate(LikeUpdate(r, uid, true), uid, false) == r
  {
    RemoveAllAppended(r.likes, uid);
  }

  /** The dislike counterpart of `LikeThenUnlikeRestores`. */
  lemma DislikeThenUndislikeRestores(r: ApiReel, uid: string)
    requires uid !in r.likes && uid !in r.dislikes
    ensures DislikeUpdate(DislikeUpdate(r, uid, true), uid, false) == r
  {
    RemoveAllAppended(r.dislikes, uid);
  }

  /** `handleCommentAdded`: the new comment is appended to the comments of
      the selected reel only; with no reel selected nothing changes. */
  function AddComment(reels: seq<ApiReel>, selected: Option<string>, c: Comment): (r: seq<ApiReel>)
    ensures |r| == |reels|
    ensures selected.None? ==> r == reels
    ensures forall i :: 0 <= i < |reels| ==>
      if selected == Some(reels[i].id) then r[i] == reels[i].(comments := reels[i].comments + [c])
      else r[i] == reels[i]
  {
    match selected
    case None => reels
    case Some(id) => UpdateWhere(reels, id, (x: ApiReel) => x.(comments := x.comments + [c]))
  }

  /** The comments of the selected reel without their last entry: the undo
      of `AddComment`. */
  function DropLastComment(reels: seq<ApiReel>, selected: Option<string>): (r: seq<ApiReel>)
    ensures |r| == |reels|
    ensures forall i :: 0 <= i < |reels| && selected != Some(reels[i].id) ==> r[i] == reels[i]
    ensures forall i :: 0 <= i < |reels| && selected == Some(reels[i].id) ==>
      r[i].(comments := reels[i].comments) == reels[i] && |r[i].comments| == if |reels[i].comments| == 0 then 0 else |reels[i].comments| - 1
  {
    seq(|reels|, i requires 0 <= i < |reels| =>
      var x := reels[i];
      if selected == Some(x.id) && |x.comments| > 0 then x.(comments := x.comments[..|x.comments| - 1]) else x)
  }

  /** Adding a comment and dropping the selected reels' last comment gives
      the list back: the comment lands at the end of the selected reel's
      comments and nowhere else. */
  lemma AddCommentThenDropRestores(reels: seq<ApiReel>, selected: Option<string>, c: Comment)
    ensures DropLastComment(AddComment(reels, selected, c), selected) == reels
  {
  }

  /** `handleScroll` as written: the index of the reel in view moves to the
      rounded scroll position when that differs and is below the count. */
  function ScrollAsWritten(current: int, count: nat, newIndex: int): (r: int)
    ensures r != current ==> r == newIndex && newIndex < count
    ensures newIndex < count ==> r == newIndex
  {
    if newIndex != current && newIndex < count then newIndex else current
  }

  /** An elastic overscroll above the first reel rounds to -1, which the
      guard lets through: no reel is then in view. */
  lemma ScrollAsWrittenAcceptsNegative()
    ensures ScrollAsWritten(0, 3, -1) == -1
  {
  }

  /** `handleScroll` with the lower bound the guard evidently intends. */
  function Scroll(current: int, count: nat, newIndex: int): (r: int)
    ensures 0 <= current < count ==> 0 <= r < count
    ensures r != current ==> r == newIndex && 0 <= newIndex < count
    ensures r == current || r == newIndex
    ensures 0 <= newIndex < count ==> r == newIndex
  {
    if newIndex != current && 0 <= newIndex < count then newIndex else current
  }

  /** The two guards agree on every index that is not negative. */
  lemma ScrollAgreesOnNonNegative(current: int, count: nat, newIndex: int)
    requires newIndex >= 0
    ensures Scroll(current, count, newIndex) == ScrollAsWritten(current, count, newIndex)
  {
  }
}

=== FILE: reels_route.dfy ===
/** `GET /api/reels`: the query built from the `category` and `userId`
    parameters, newest-first ordering, and the conversion of `_id` to text. */
module ReelsRoute {
  import opened Base
  import opened Types
  import opened Http

  /** The two query-string parameters, `None` when absent. */
  datatype ListParams = ListParams(category: Option<string>, userId: Option<string>)

  /** The filter document: each constraint present or not. */
  datatype Query = Query(category: Option<string>, userId: Option<string>)

  datatype ListEnv = ListEnv(reels: seq<StoredReel>, fault: Fault)

  /** The category filter applies only to a non-empty value other than "all";
      the owner filter to any non-empty value. */
  function BuildQuery(p: ListParams): (q: Query)
    ensures q.category.Some? <==> Truthy(p.category) && p.category.value != ALL_CATEGORIES
    ensures q.category.Some? ==> q.category == p.category
    ensures q.userId.Some? <==> Truthy(p.userId)
    ensures q.userId.Some? ==> q.userId == p.userId
  {
    Query(if Truthy(p.category) && p.category.value != ALL_CATEGORIES then p.category else None,
          if Truthy(p.userId) then p.userId else None)
  }

  /** A reel satisfies every constraint of the query. */
  predicate Matches(q: Query, r: StoredReel) {
    (q.category.None? || r.category == q.category.value) && (q.userId.None? || r.userId == q.userId.value)
  }

  /** Which reels the parameters select: a category other than "all" must
      equal the reel's, and an owner must equal the reel's owner; an absent
      or empty parameter selects everything. */
  lemma ParamsSelect(p: ListParams, r: StoredReel)
    ensures Matches(BuildQuery(p), r) <==>
      && (!Truthy(p.category) || p.category.value == ALL_CATEGORIES || r.category == p.category.value)
      && (!Truthy(p.userId) || r.userId == p.userId.value)
  {
  }

  /** The reels that match, in store order. */
  function Filter(q: Query, s: seq<StoredReel>): (t: seq<StoredReel>)
    ensures forall i :: 0 <= i < |t| ==> Matches(q, t[i])
    ensures forall r :: r in s && Matches(q, r) ==> r in t
    ensures forall x :: multiset(t)[x] == if Matches(q, x) then multiset(s)[x] else 0
  {
    if |s| == 0 then []
    else
      var rest := Filter(q, s[1..]);
      assert s == [s[0]] + s[1..];
      if Matches(q, s[0]) then [s[0]] + rest else rest
  }

  predicate NewestFirst(s: seq<StoredReel>) {
    forall i, j :: 0 <= i < j < |s| ==> s[i].createdAt >= s[j].createdAt
  }

  /** Every reel in `s` is no newer than `d`. */
  predicate NoNewerThan(s: seq<StoredReel>, d: int) {
    forall i :: 0 <= i < |s| ==> s[i].createdAt <= d
  }

  /** Putting a reel no older than any in a newest-first list at its head
      keeps the list newest first. */
  lemma PrependKeepsOrder(x: StoredReel, s: seq<StoredReel>)
    requires NewestFirst(s) && NoNewerThan(s, x.createdAt)
    ensures NewestFirst([x] + s)
  {
  }

  /** Inserts `r` into a newest-first list before every reel no newer than it. */
  function InsertByDate(r: StoredReel, s: seq<StoredReel>): (t: seq<StoredReel>)
    requires NewestFirst(s)
    ensures NewestFirst(t)
    ensures multiset(t) == multiset(s) + multiset{r}
    ensures forall d :: NoNewerThan(s, d) && r.createdAt <= d ==> NoNewerThan(t, d)
  {
    if |s| == 0 then [r]
    else if r.createdAt >= s[0].createdAt then
      assert NoNewerThan(s, r.createdAt);
      PrependKeepsOrder(r, s);
      [r] + s
    else
      assert NewestFirst(s[1..]);
      var rest := InsertByDate(r, s[1..]);
      InsertBehindHead(r, s, rest);
      [s[0]] + rest
  }

  /** Inserting behind an older head: the head goes back in front of the
      insertion into the tail. */
  lemma InsertBehindHead(r: StoredReel, s: seq<StoredReel>, rest: seq<StoredReel>)
    requires |s| > 0 && NewestFirst(s) && r.createdAt < s[0].createdAt
    requires NewestFirst(rest) && multiset(rest) == multiset(s[1..]) + multiset{r}
    requires forall d :: NoNewerThan(s[1..], d) && r.createdAt <= d ==> NoNewerThan(rest, d)
    ensures NewestFirst([s[0]] + rest)
    ensures multiset([s[0]] + rest) == multiset(s) + multiset{r}
    ensures forall d :: NoNewerThan(s, d) && r.createdAt <= d ==> NoNewerThan([s[0]] + rest, d)
  {
    assert NoNewerThan(s[1..], s[0].createdAt);
    PrependKeepsOrder(s[0], rest);
    assert s == [s[0]] + s[1..];
    assert multiset([s[0]] + rest) == multiset{s[0]} + multiset(rest);
    forall d | NoNewerThan(s, d) && r.createdAt <= d ensures NoNewerThan([s[0]] + rest, d) {
      assert NoNewerThan(s[1..], d);
    }
  }

  /** `sort({ createdAt: -1 })`: newest first. The database leaves the order of
      equal dates open; this sort keeps store order among them. */
  function SortNewestFirst(s: seq<StoredReel>): (t: seq<StoredReel>)
    ensures NewestFirst(t)
    ensures multiset(t) == multiset(s)
  {
    if |s| == 0 then []
    else
      assert s == [s[0]] + s[1..];
      InsertByDate(s[0], SortNewestFirst(s[1..]))
  }

  function StringifyAll(s: seq<StoredReel>): (t: seq<ApiReel>)
    ensures |t| == |s|
    ensures forall i :: 0 <= i < |s| ==> t[i] == Stringify(s[i])
  {
    seq(|s|, i requires 0 <= i < |s| => Stringify(s[i]))
  }

  /** The route handler. A successful listing holds one entry per stored reel
      that meets every filter the parameters switched on, each with only its
      identifier turned into text, newest first. */
  function ListReels(p: ListParams, env: ListEnv): (r: Response)
    ensures r.status == OK || r == INTERNAL_ERROR
    ensures r.status == OK <==> !env.fault.At(Connect) && !env.fault.At(FindReels)
    ensures r.status == OK ==> r.body.ReelListBody?
    ensures r.status == OK ==> |r.body.reels| == |Filter(BuildQuery(p), env.reels)|
    ensures r.status == OK ==> forall i :: 0 <= i < |r.body.reels| ==>
      exists s :: s in env.reels && Matches(BuildQuery(p), s) && r.body.reels[i] == Stringify(s)
    ensures r.status == OK ==> forall i, j :: 0 <= i < j < |r.body.reels| ==>
      r.body.reels[i].createdAt >= r.body.reels[j].createdAt
    ensures r.status == OK ==> forall s :: s in env.reels && Matches(BuildQuery(p), s) ==>
      Stringify(s) in r.body.reels
  {
    if env.fault.At(Connect) || env.fault.At(FindReels) then INTERNAL_ERROR
    else
      var sorted := SortNewestFirst(Filter(BuildQuery(p), env.reels));
      PermutationListing(BuildQuery(p), env.reels, sorted);
      Response(OK, ReelListBody(StringifyAll(sorted)))
  }

  /** A reel of a permutation of the matching reels is a matching stored reel. */
  lemma FromStore(q: Query, store: seq<StoredReel>, sorted: seq<StoredReel>, i: int)
    requires multiset(sorted) == multiset(Filter(q, store))
    requires 0 <= i < |sorted|
    ensures sorted[i] in store && Matches(q, sorted[i])
  {
    var m := Filter(q, store);
    assert sorted[i] in multiset(sorted);
    assert sorted[i] in multiset(m);
    assert sorted[i] in m;
    var k :| 0 <= k < |m| && m[k] == sorted[i];
    assert multiset(m) <= multiset(store);
    assert sorted[i] in multiset(store);
  }

  /** The same facts for any newest-first permutation of the matching reels. */
  lemma PermutationListing(q: Query, store: seq<StoredReel>, sorted: seq<StoredReel>)
    requires multiset(sorted) == multiset(Filter(q, store))
    requires NewestFirst(sorted)
    ensures var out := StringifyAll(sorted);
      && |out| == |Filter(q, store)|
      && (forall i :: 0 <= i < |out| ==> exists r :: r in store && Matches(q, r) && out[i] == Stringify(r))
      && (forall i, j :: 0 <= i < j < |out| ==> out[i].createdAt >= out[j].createdAt)
      && (forall r :: r in store && Matches(q, r) ==> Stringify(r) in out)
  {
    var matching := Filter(q, store);
    var out := StringifyAll(sorted);
    assert |sorted| == |matching| by {
      assert |multiset(sorted)| == |multiset(matching)|;
    }
    forall i | 0 <= i < |out|
      ensures exists r :: r in store && Matches(q, r) && out[i] == Stringify(r)
    {
      FromStore(q, store, sorted, i);
    }
    forall r | r in store && Matches(q, r) ensures Stringify(r) in out {
      assert r in matching;
      assert r in multiset(sorted);
      var k :| 0 <= k < |sorted| && sorted[k] == r;
      assert out[k] == Stringify(r);
    }
  }

  /** With neither parameter (or with category "all"), every stored reel is listed. */
  lemma NoFilterListsEverything(p: ListParams, env: ListEnv)
    requires !Truthy(p.userId) && (!Truthy(p.category) || p.category.value == ALL_CATEGORIES)
    requires !env.fault.At(Connect) && !env.fault.At(FindReels)
    ensures |ListReels(p, env).body.reels| == |env.reels|
    ensures forall r :: r in env.reels ==> Stringify(r) in ListReels(p, env).body.reels
  {
    var q := BuildQuery(p);
    assert q == Query(None, None);
    var m := Filter(q, env.reels);
    assert multiset(m) == multiset(env.reels) by {
      FilterKeepsAll(q, env.reels);
    }
    assert |multiset(m)| == |multiset(env.reels)|;
  }

  /** A filter every reel passes keeps the whole store. */
  lemma {:induction false} FilterKeepsAll(q: Query, s: seq<StoredReel>)
    requires forall r :: r in s ==> Matches(q, r)
    ensures Filter(q, s) == s
  {
    if |s| > 0 {
      assert s[0] in s;
      FilterKeepsAll(q, s[1..]);
      assert s == [s[0]] + s[1..];
    }
  }
}

=== FILE: signup_route.dfy ===
/** `POST /api/auth/signup`: body parsing, the four validation checks in
    their fixed order, the collision check against existing users, and the
    creation of the user document and session token. */
module SignupRoute {
  import opened Base
  import opened Text
  import opened Types
  import opened Http
  import opened Tokens

  datatype SignupFields = SignupFields(username: Option<string>, email: Option<string>, password: Option<string>)

  /** Everything besides the request that the route depends on: the `users`
      collection, where (if anywhere) a collaborator throws, the salt the
      hasher draws, the identifier the insert assigns, and the clock. */
  datatype SignupEnv = SignupEnv(users: seq<StoredUser>, fault: Fault, salt: string, newId: ObjectId, now: int)

  /** The response and the `users` collection afterwards. */
  datatype SignupOutcome = SignupOutcome(response: Response, users: seq<StoredUser>)

  const MIN_PASSWORD_LENGTH: nat := 6

  predicate AllPresent(f: SignupFields) {
    Truthy(f.username) && Truthy(f.email) && Truthy(f.password)
  }

  /** The request passes all four checks. */
  predicate PassesValidation(f: SignupFields) {
    && AllPresent(f)
    && IsValidEmail(f.email.value)
    && IsValidUsername(f.username.value)
    && Utf16Length(f.password.value) >= MIN_PASSWORD_LENGTH
  }

  /** The four checks, run in order; the first that fails decides the answer. */
  function Validate(f: SignupFields): (r: Option<Response>)
    ensures r.None? <==> PassesValidation(f)
    ensures r.Some? ==> r.value.status == BAD_REQUEST
    ensures !AllPresent(f) ==>
      && r.Some? && r.value.body.MissingFieldsBody?
      && r.value.body.error == "Missing required fields"
      && r.value.body.details.username == (if Truthy(f.username) then None else Some("Username is required"))
      && r.value.body.details.email == (if Truthy(f.email) then None else Some("Email is required"))
      && r.value.body.details.password == (if Truthy(f.password) then None else Some("Password is required"))
    ensures AllPresent(f) && !IsValidEmail(f.email.value) ==>
      r == Some(Error(BAD_REQUEST, "Invalid email format"))
    ensures AllPresent(f) && IsValidEmail(f.email.value) && !IsValidUsername(f.username.value) ==>
      r == Some(Error(BAD_REQUEST, "Username can only contain letters, numbers, and underscores"))
    ensures AllPresent(f) && IsValidEmail(f.email.value) && IsValidUsername(f.username.value)
            && Utf16Length(f.password.value) < MIN_PASSWORD_LENGTH ==>
      r == Some(Error(BAD_REQUEST, "Password must be at least 6 characters long"))
  {
    if !AllPresent(f) then
      Some(Response(BAD_REQUEST, MissingFieldsBody("Missing required fields", FieldDetails(
        if Truthy(f.username) then None else Some("Username is required"),
        if Truthy(f.email) then None else Some("Email is required"),
        if Truthy(f.password) then None else Some("Password is required")))))
    else if !IsValidEmail(f.email.value) then Some(Error(BAD_REQUEST, "Invalid email format"))
    else if !IsValidUsername(f.username.value) then
      Some(Error(BAD_REQUEST, "Username can only contain letters, numbers, and underscores"))
    else if Utf16Length(f.password.value) < MIN_PASSWORD_LENGTH then
      Some(Error(BAD_REQUEST, "Password must be at least 6 characters long"))
    else None
  }

  /** A stored user the existence query (`email` lower-cased, or `username`) matches. */
  predicate Collides(u: StoredUser, username: string, email: string) {
    u.email == ToLower(email) || u.username == username
  }

  /** Which field the collision answer names: "email" when the existing
      user's e-mail equals the submitted one ignoring case, else "username". */
  function CollisionField(existing: StoredUser, email: string): (field: string)
    ensures field == "email" || field == "username"
    ensures existing.email == ToLower(email) ==> field == "email"
    ensures field == "email" <==> ToLower(existing.email) == ToLower(email)
  {
    ToLowerNormalises(email);
    if ToLower(existing.email) == ToLower(email) then "email" else "username"
  }

  /** The answer for an error thrown while talking to the database: a
      duplicate-key server error is the client's fault, anything else is not. */
  function CreateFailure(err: ErrorKind): (r: Response)
    ensures r.status == BAD_REQUEST <==> err == MongoServerError(DUPLICATE_KEY)
    ensures r.status == BAD_REQUEST || r.status == SERVER_ERROR
    ensures err == MongoServerError(DUPLICATE_KEY) ==> r == Error(BAD_REQUEST, "Username or email already exists")
    ensures err != MongoServerError(DUPLICATE_KEY) ==> r == Error(SERVER_ERROR, "Failed to create user")
  {
    if err == MongoServerError(DUPLICATE_KEY) then Error(BAD_REQUEST, "Username or email already exists")
    else Error(SERVER_ERROR, "Failed to create user")
  }

  /** The document the route inserts. */
  function NewUser(f: SignupFields, env: SignupEnv, crypto: Crypto): (u: StoredUser)
    requires AllPresent(f)
    ensures u.id == env.newId && u.username == f.username.value
    ensures u.email == ToLower(f.email.value) && IsLowerCased(u.email)
    ensures u.password == crypto.hash(f.password.value, env.salt)
    ensures u.bio == Some("") && u.createdAt == Some(env.now)
  {
    ToLowerNormalises(f.email.value);
    StoredUser(env.newId, f.username.value, ToLower(f.email.value),
               crypto.hash(f.password.value, env.salt), Some(""), Some(env.now))
  }

  /** The user object of the signup answer: the document minus its password. */
  function Publish(u: StoredUser): (p: PublicUser)
    ensures p.id == IdString(u.id) && p.username == u.username && p.email == u.email
    ensures u.bio.Some? ==> p.bio == u.bio.value
    ensures u.bio.None? ==> p.bio == ""
    ensures p.createdAt == u.createdAt
  {
    PublicUser(IdString(u.id), u.username, u.email, BioOrEmpty(u.bio), u.createdAt)
  }

  /** The collaborator steps the route takes once validation has passed. */
  predicate FaultFree(fault: Fault) {
    !fault.At(Connect) && !fault.At(FindUser) && !fault.At(HashPassword)
    && !fault.At(InsertUser) && !fault.At(SignToken)
  }

  /** The database part of the route, reached only with a valid request. */
  function Register(f: SignupFields, env: SignupEnv, crypto: Crypto, tokens: TokenService): (r: SignupOutcome)
    requires PassesValidation(f)
    ensures r.users == env.users || r.users == env.users + [NewUser(f, env, crypto)]
    ensures r.users != env.users ==> forall u :: u in env.users ==> !Collides(u, f.username.value, f.email.value)
    ensures env.fault.At(Connect) || env.fault.At(FindUser) ==>
      r == SignupOutcome(CreateFailure(env.fault.err), env.users)
    ensures (forall u :: u in env.users ==> !Collides(u, f.username.value, f.email.value)) ==>
      && (env.fault.At(HashPassword) || env.fault.At(InsertUser) ==>
            r == SignupOutcome(CreateFailure(env.fault.err), env.users))
      && (env.fault.At(SignToken) ==>
            r == SignupOutcome(CreateFailure(env.fault.err), env.users + [NewUser(f, env, crypto)]))
  {
    var username, email := f.username.value, f.email.value;
    if env.fault.At(Connect) || env.fault.At(FindUser) then SignupOutcome(CreateFailure(env.fault.err), env.users)
    else
      match FindFirst(env.users, (u: StoredUser) => Collides(u, username, email))
      case Some(i) =>
        var message := if CollisionField(env.users[i], email) == "email"
                       then "Email is already taken" else "Username is already taken";
        SignupOutcome(Error(BAD_REQUEST, message), env.users)
      case None =>
        if env.fault.At(HashPassword) || env.fault.At(InsertUser) then
          SignupOutcome(CreateFailure(env.fault.err), env.users)
        else
          var user := NewUser(f, env, crypto);
          var users' := env.users + [user];
          if env.fault.At(SignToken) then SignupOutcome(CreateFailure(env.fault.err), users')
          else SignupOutcome(Response(OK, SessionBody(tokens.sign(IdString(env.newId)), Publish(user))), users')
  }

  /** The route handler. */
  function Signup(body: JsonBody<SignupFields>, env: SignupEnv, crypto: Crypto, tokens: TokenService): (r: SignupOutcome)
    ensures body.Unparseable? ==> r == SignupOutcome(Error(BAD_REQUEST, "Invalid request body"), env.users)
    ensures body.NullBody? ==> r == SignupOutcome(INTERNAL_ERROR, env.users)
    ensures body.Parsed? && !PassesValidation(body.fields) ==>
      r == SignupOutcome(Validate(body.fields).value, env.users)
    ensures r.users != env.users ==>
      body.Parsed? && PassesValidation(body.fields) && r.users == env.users + [NewUser(body.fields, env, crypto)]
    ensures body.Parsed? && PassesValidation(body.fields) ==> r == Register(body.fields, env, crypto, tokens)
  {
    match body
    case Unparseable => SignupOutcome(Error(BAD_REQUEST, "Invalid request body"), env.users)
    case NullBody => SignupOutcome(INTERNAL_ERROR, env.users)
    case Parsed(f) =>
      match Validate(f)
      case Some(err) => SignupOutcome(err, env.users)
      case None => Register(f, env, crypto, tokens)
  }

  /** Signup succeeds exactly when the request is valid, no stored user
      collides with it and nothing throws; the answer then carries a token for
      the new identifier and the new document without its password. */
  lemma SignupSucceedsIff(f: SignupFields, env: SignupEnv, crypto: Crypto, tokens: TokenService)
    ensures var r := Signup(Parsed(f), env, crypto, tokens);
      && (r.response.status == OK <==>
            && PassesValidation(f)
            && (forall u :: u in env.users ==> !Collides(u, f.username.value, f.email.value))
            && FaultFree(env.fault))
      && (r.response.status == OK ==>
            && r.users == env.users + [NewUser(f, env, crypto)]
            && r.response.body == SessionBody(tokens.sign(IdString(env.newId)), Publish(NewUser(f, env, crypto))))
  {
  }

  /** A collision is answered with 400, naming the field the first colliding
      user was found by, and nothing is inserted. */
  lemma CollisionIsReported(f: SignupFields, env: SignupEnv, crypto: Crypto, tokens: TokenService, i: nat)
    requires PassesValidation(f)
    requires !env.fault.At(Connect) && !env.fault.At(FindUser)
    requires i < |env.users| && Collides(env.users[i], f.username.value, f.email.value)
    requires forall j :: 0 <= j < i ==> !Collides(env.users[j], f.username.value, f.email.value)
    ensures var r := Signup(Parsed(f), env, crypto, tokens);
      && r.users == env.users
      && r.response.status == BAD_REQUEST
      && (env.users[i].email == ToLower(f.email.value) ==> r.response == Error(BAD_REQUEST, "Email is already taken"))
      && (ToLower(env.users[i].email) != ToLower(f.email.value) ==> r.response == Error(BAD_REQUEST, "Username is already taken"))
  {
  }

  /** A request that fails validation gets the same answer whatever the
      database holds and whatever would throw: no database step is taken. */
  lemma ValidationPrecedesDatabase(f: SignupFields, env1: SignupEnv, env2: SignupEnv, crypto: Crypto, tokens: TokenService)
    requires !PassesValidation(f)
    ensures Signup(Parsed(f), env1, crypto, tokens).response == Signup(Parsed(f), env2, crypto, tokens).response
    ensures Signup(Parsed(f), env1, crypto, tokens).users == env1.users
  {
  }

  /** Invariant of the `users` collection the route maintains: e-mails
      stored lower-cased, e-mails, usernames and identifiers all distinct. */
  ghost predicate WellFormedUsers(users: seq<StoredUser>) {
    && (forall i :: 0 <= i < |users| ==> IsLowerCased(users[i].email) && IsCanonical(users[i].id))
    && (forall i, j :: 0 <= i < j < |users| ==>
          && users[i].email != users[j].email
          && users[i].username != users[j].username
          && users[i].id != users[j].id)
  }

  /** Signup keeps the collection well formed, given a fresh canonical identifier. */
  lemma SignupPreservesWellFormedUsers(body: JsonBody<SignupFields>, env: SignupEnv, crypto: Crypto, tokens: TokenService)
    requires WellFormedUsers(env.users)
    requires IsCanonical(env.newId)
    requires forall u :: u in env.users ==> u.id != env.newId
    ensures WellFormedUsers(Signup(body, env, crypto, tokens).users)
  {
  }
}

=== FILE: text.dfy ===
/** Character classes and string checks used by the authentication routes:
    JavaScript's `toLowerCase` on ASCII letters, the `\s` class of JavaScript
    regular expressions, `startsWith`, the UTF-16 `length` of a string, and
    the e-mail and username patterns of the signup route. */
module Text {
  import opened Base

  predicate IsAsciiUpper(c: char) { 'A' <= c <= 'Z' }

  function LowerChar(c: char): char {
    if IsAsciiUpper(c) then (c as int + 32) as char else c
  }

  /** `s.toLowerCase()`, restricted to the ASCII letters. */
  function ToLower(s: string): (r: string)
    ensures |r| == |s|
    ensures forall i :: 0 <= i < |s| && IsAsciiUpper(s[i]) ==> r[i] as int == s[i] as int + 32 && 'a' <= r[i] <= 'z'
    ensures forall i :: 0 <= i < |s| && !IsAsciiUpper(s[i]) ==> r[i] == s[i]
  {
    seq(|s|, i requires 0 <= i < |s| => LowerChar(s[i]))
  }

  predicate IsLowerCased(s: string) {
    forall i :: 0 <= i < |s| ==> !IsAsciiUpper(s[i])
  }

  /** Lower-casing leaves no upper-case letter behind and is idempotent,
      and it leaves an already lower-cased string alone. */
  lemma ToLowerNormalises(s: string)
    ensures IsLowerCased(ToLower(s))
    ensures ToLower(ToLower(s)) == ToLower(s)
    ensures IsLowerCased(s) ==> ToLower(s) == s
  {
  }

  /** The JavaScript `\s` class: the ASCII blanks, NBSP, the Unicode space
      separators, the line and paragraph separators and the byte-order mark. */
  predicate IsJsWhitespace(c: char) {
    || c == '\t' || c == '\n' || c == '\U{000B}' || c == '\U{000C}' || c == '\r' || c == ' '
    || c == '\U{00A0}' || c == '\U{1680}' || ('\U{2000}' <= c <= '\U{200A}')
    || c == '\U{2028}' || c == '\U{2029}' || c == '\U{202F}' || c == '\U{205F}'
    || c == '\U{3000}' || c == '\U{FEFF}'
  }

  /** `[^\s@]`: a character allowed in each of the three parts of an e-mail. */
  predicate IsEmailChar(c: char) { !IsJsWhitespace(c) && c != '@' }

  /** `[a-zA-Z0-9_]`. */
  predicate IsWordChar(c: char) {
    ('a' <= c <= 'z') || ('A' <= c <= 'Z') || ('0' <= c <= '9') || c == '_'
  }

  function StartsWith(s: string, prefix: string): bool {
    |prefix| <= |s| && s[..|prefix|] == prefix
  }

  /** Number of UTF-16 code units, which is what JavaScript's `length` counts:
      a character outside the Basic Multilingual Plane takes two. */
  function Utf16Length(s: string): (n: nat)
    ensures |s| <= n <= 2 * |s|
    ensures (forall i :: 0 <= i < |s| ==> s[i] as int < 0x1_0000) ==> n == |s|
    ensures (forall i :: 0 <= i < |s| ==> s[i] as int >= 0x1_0000) ==> n == 2 * |s|
  {
    if |s| == 0 then 0
    else (if s[0] as int >= 0x1_0000 then 2 else 1) + Utf16Length(s[1..])
  }

  /** One or two code units per character: two exactly for a character
      outside the Basic Multilingual Plane. */
  lemma Utf16LengthSingle(c: char)
    ensures Utf16Length([c]) == if c as int >= 0x1_0000 then 2 else 1
  {
    assert [c][1..] == [];
  }

  /** The code-unit count of a concatenation is the sum of the counts. */
  lemma {:induction false} Utf16LengthConcat(s: string, t: string)
    ensures Utf16Length(s + t) == Utf16Length(s) + Utf16Length(t)
  {
    if |s| > 0 {
      assert (s + t)[0] == s[0];
      assert (s + t)[1..] == s[1..] + t;
      Utf16LengthConcat(s[1..], t);
    } else {
      assert s + t == t;
    }
  }

  /** Index of the first occurrence of `c` in `s`. */
  function IndexOf(s: string, c: char): Option<nat> {
    FindFirst(s, (x: char) => x == c)
  }

  /** The domain part holds a '.' with at least one character on each side. */
  predicate HasInnerDot(d: string) {
    exists i :: 0 < i < |d| - 1 && d[i] == '.'
  }

  /** The signup e-mail check, read as the properties it enforces: no
      whitespace anywhere, exactly one '@' with a non-empty part before it,
      and a domain after it with an inner '.'. */
  predicate IsValidEmail(s: string) {
    && (forall k :: 0 <= k < |s| ==> !IsJsWhitespace(s[k]))
    && match IndexOf(s, '@')
       case None => false
       case Some(at) => 0 < at && '@' !in s[at + 1..] && HasInnerDot(s[at + 1..])
  }

  /** A literal reading of /^[^\s@]+@[^\s@]+\.[^\s@]+$/ at a given '@' and '.':
      the three runs are non-empty and every other character is in [^\s@]. */
  ghost predicate EmailPatternAt(s: string, at: int, dot: int) {
    && 0 < at && at + 1 < dot && dot + 1 < |s|
    && s[at] == '@' && s[dot] == '.'
    && forall k :: 0 <= k < |s| && k != at ==> IsEmailChar(s[k])
  }

  ghost predicate MatchesEmailPattern(s: string) {
    exists at, dot :: EmailPatternAt(s, at, dot)
  }

  /** The signup check accepts exactly the strings the regular expression matches. */
  lemma EmailCheckMatchesPattern(s: string)
    ensures IsValidEmail(s) <==> MatchesEmailPattern(s)
  {
    if IsValidEmail(s) {
      var at := IndexOf(s, '@').value;
      var d := s[at + 1..];
      var i :| 0 < i < |d| - 1 && d[i] == '.';
      var dot := at + 1 + i;
      forall k | 0 <= k < |s| && k != at
        ensures IsEmailChar(s[k])
      {
        if k > at {
          assert s[k] == d[k - at - 1];
        }
      }
      assert EmailPatternAt(s, at, dot);
    }
    if MatchesEmailPattern(s) {
      var at, dot :| EmailPatternAt(s, at, dot);
      assert IndexOf(s, '@') == Some(at) by {
        assert s[at] == '@';
        assert forall k :: 0 <= k < |s| && k != at ==> s[k] != '@' by {
          forall k | 0 <= k < |s| && k != at ensures s[k] != '@' {
            assert IsEmailChar(s[k]);
          }
        }
      }
      var d := s[at + 1..];
      assert d[dot - at - 1] == '.';
      assert HasInnerDot(d);
      assert '@' !in d by {
        forall j | 0 <= j < |d| ensures d[j] != '@' {
          assert d[j] == s[at + 1 + j];
          assert IsEmailChar(s[at + 1 + j]);
        }
      }
      forall k | 0 <= k < |s| ensures !IsJsWhitespace(s[k]) {
        if k != at { assert IsEmailChar(s[k]); }
      }
    }
  }

  /** The signup username check, /^[a-zA-Z0-9_]+$/. */
  predicate IsValidUsername(s: string) {
    |s| > 0 && forall k :: 0 <= k < |s| ==> IsWordChar(s[k])
  }
}

=== FILE: tokens.dfy ===
/** Token and password services as opaque collaborators, and the bearer
    guard the "current user" and upload routes share. */
module Tokens {
  import opened Base
  import opened Text
  import opened Http

  /** Signing a user id into a token, and verifying a token back to the user
      id it carries (`None` for an expired, malformed or forged token; the
      verifier never throws). */
  datatype TokenService = TokenService(sign: string -> string, verify: string -> Option<string>)

  /** A signer whose tokens are never empty, with a verifier that accepts
      every token the signer issued. */
  ghost predicate RoundTrips(t: TokenService) {
    forall id :: t.sign(id) != "" && t.verify(t.sign(id)) == Some(id)
  }

  /** Salted password hashing and the matching comparison. */
  datatype Crypto = Crypto(hash: (string, string) -> string, compare: (string, string) -> bool)

  /** A comparison that accepts a password against any salted hash of it. */
  ghost predicate HashMatches(c: Crypto) {
    forall password, salt :: c.compare(password, c.hash(password, salt))
  }

  const BEARER: string := "Bearer "

  /** The token of an `Authorization` header: present only when the header
      starts with "Bearer ", and then everything after those 7 characters. */
  function BearerToken(header: Option<string>): (r: Option<string>)
    ensures r.Some? <==> header.Some? && StartsWith(header.value, BEARER)
    ensures r.Some? ==> header.value == BEARER + r.value
  {
    if header.Some? && StartsWith(header.value, BEARER) then
      assert header.value == header.value[..7] + header.value[7..];
      Some(header.value[7..])
    else None
  }

  /** A header built from a token yields that token back. */
  lemma BearerRoundTrip(token: string)
    ensures BearerToken(Some(BEARER + token)) == Some(token)
  {
  }

  datatype AuthResult = NoToken | InvalidToken | Authenticated(userId: string)

  /** The guard at the head of the authenticated routes. */
  function Authenticate(header: Option<string>, tokens: TokenService): (r: AuthResult)
    ensures r.NoToken? <==> BearerToken(header).None?
    ensures r.InvalidToken? <==> BearerToken(header).Some? && tokens.verify(BearerToken(header).value).None?
    ensures r.Authenticated? ==> exists t :: header == Some(BEARER + t) && tokens.verify(t) == Some(r.userId)
  {
    match BearerToken(header)
    case None => NoToken
    case Some(t) =>
      match tokens.verify(t)
      case None => InvalidToken
      case Some(id) => Authenticated(id)
  }

  /** The 401 answer for a request the guard turns away. */
  function Rejection(a: AuthResult): (r: Response)
    requires !a.Authenticated?
    ensures r.status == UNAUTHORIZED
    ensures r.body.ErrorBody?
    ensures a.NoToken? ==> r.body.error == "No token provided"
    ensures a.InvalidToken? ==> r.body.error == "Invalid token"
  {
    if a.NoToken? then Error(UNAUTHORIZED, "No token provided") else Error(UNAUTHORIZED, "Invalid token")
  }
}

=== FILE: types.dfy ===
/** The documents of the application: stored users, the password-free user
    shape the API returns, reels with their engagement lists and embedded
    comments, and the document identifiers that tie them together. */
module Types {
  import opened Base
  import opened Text

  /** A document identifier, kept as its 24-digit hexadecimal text. */
  datatype ObjectId = ObjectId(hex: string)

  predicate IsHexDigit(c: char) {
    ('0' <= c <= '9') || ('a' <= c <= 'f') || ('A' <= c <= 'F')
  }

  /** The form every identifier the database hands out takes:
      24 lower-case hexadecimal digits. */
  predicate IsCanonical(o: ObjectId) {
    |o.hex| == 24 && forall i :: 0 <= i < 24 ==> IsHexDigit(o.hex[i]) && !IsAsciiUpper(o.hex[i])
  }

  /** `id.toString()`. */
  function IdString(o: ObjectId): string { o.hex }

  /** `new ObjectId(s)`: accepts 24 hexadecimal digits in either case and
      fails (throws) on anything else. */
  function ParseObjectId(s: string): (r: Option<ObjectId>)
    ensures r.Some? <==> |s| == 24 && forall i :: 0 <= i < |s| ==> IsHexDigit(s[i])
    ensures r.Some? ==> IsCanonical(r.value) && IdString(r.value) == ToLower(s)
  {
    if |s| == 24 && forall i :: 0 <= i < |s| ==> IsHexDigit(s[i]) then Some(ObjectId(ToLower(s)))
    else None
  }

  /** Printing an identifier and parsing the text back gives the identifier. */
  lemma ParseIdString(o: ObjectId)
    requires IsCanonical(o)
    ensures ParseObjectId(IdString(o)) == Some(o)
  {
    ToLowerNormalises(o.hex);
  }

  /** A document of the `users` collection. `bio` and `createdAt` may be
      missing from documents the signup route did not write. */
  datatype StoredUser = StoredUser(
    id: ObjectId,
    username: string,
    email: string,
    password: string,
    bio: Option<string>,
    createdAt: Option<int>)

  /** The user as the API returns it: there is no password field at all.
      `createdAt` is absent from the login response. */
  datatype PublicUser = PublicUser(
    id: string,
    username: string,
    email: string,
    bio: string,
    createdAt: Option<int>)

  /** `user.bio || ""`. */
  function BioOrEmpty(bio: Option<string>): string {
    bio.GetOr("")
  }

  datatype Comment = Comment(id: string, userId: string, username: string, text: string, createdAt: int)

  /** A reel document. The identifier type is `ObjectId` in the store and
      `string` once an API response has converted it. */
  datatype Reel<Id> = Reel(
    id: Id,
    userId: string,
    username: string,
    title: string,
    description: string,
    category: string,
    videoId: string,
    likes: seq<string>,
    dislikes: seq<string>,
    comments: seq<Comment>,
    createdAt: int)

  type StoredReel = Reel<ObjectId>
  type ApiReel = Reel<string>

  /** `{ ...reel, _id: reel._id.toString() }`. */
  function Stringify(r: StoredReel): (a: ApiReel)
    ensures a.id == IdString(r.id)
    ensures a.userId == r.userId && a.username == r.username
    ensures a.title == r.title && a.description == r.description && a.category == r.category
    ensures a.videoId == r.videoId && a.likes == r.likes && a.dislikes == r.dislikes
    ensures a.comments == r.comments && a.createdAt == r.createdAt
  {
    Reel(IdString(r.id), r.userId, r.username, r.title, r.description, r.category,
         r.videoId, r.likes, r.dislikes, r.comments, r.createdAt)
  }

  /** The category value the feed sends to mean "no category filter". */
  const ALL_CATEGORIES: string := "all"
}

=== FILE: upload_route.dfy ===
/** `POST /api/reels/upload`: the bearer guard, the form checks, the owner
    lookup, storing the video blob and inserting the initial reel document. */
module UploadRoute {
  import opened Base
  import opened Types
  import opened Http
  import opened Tokens

  datatype VideoFile = VideoFile(name: string, contentType: string)

  /** The multipart form: unreadable, or the four fields read from it. */
  datatype Form =
    | UnreadableForm
    | Form(video: Option<VideoFile>, title: Option<string>, description: Option<string>, category: Option<string>)

  /** A stored video file and the metadata written with it. */
  datatype Blob = Blob(id: ObjectId, filename: string, ownerId: string, originalName: string, contentType: string)

  /** The collections the route reads and writes, where (if anywhere) a
      collaborator throws, the identifiers the blob store and the insert
      assign, and the clock. */
  datatype UploadEnv = UploadEnv(
    users: seq<StoredUser>,
    reels: seq<StoredReel>,
    blobs: seq<Blob>,
    fault: Fault,
    blobId: ObjectId,
    reelId: ObjectId,
    now: int)

  datatype UploadOutcome = UploadOutcome(response: Response, reels: seq<StoredReel>, blobs: seq<Blob>)

  /** The form holds a video, a non-empty title and a non-empty category. */
  predicate HasRequiredFields(form: Form) {
    form.Form? && form.video.Some? && Truthy(form.title) && Truthy(form.category)
  }

  /** The reel document the route inserts for a user's upload. */
  function InitialReel(form: Form, userId: string, owner: StoredUser, env: UploadEnv): (r: StoredReel)
    requires HasRequiredFields(form)
    ensures r.likes == [] && r.dislikes == [] && r.comments == []
    ensures r.userId == userId && r.username == owner.username
    ensures r.title == form.title.value && r.category == form.category.value
    ensures !Truthy(form.description) ==> r.description == ""
    ensures Truthy(form.description) ==> r.description == form.description.value
    ensures r.createdAt == env.now
    ensures r.videoId == IdString(env.blobId) && r.id == env.reelId
  {
    Reel(env.reelId, userId, owner.username, form.title.value,
         if Truthy(form.description) then form.description.value else "",
         form.category.value, IdString(env.blobId), [], [], [], env.now)
  }

  function Unchanged(env: UploadEnv, response: Response): UploadOutcome {
    UploadOutcome(response, env.reels, env.blobs)
  }

  /** The route handler. */
  function Upload(header: Option<string>, form: Form, env: UploadEnv, tokens: TokenService): (r: UploadOutcome)
    ensures !Authenticate(header, tokens).Authenticated? ==>
      r == Unchanged(env, Rejection(Authenticate(header, tokens)))
    ensures Authenticate(header, tokens).Authenticated? && form.Form? && !HasRequiredFields(form) ==>
      r == Unchanged(env, Error(BAD_REQUEST, "Missing required fields"))
    ensures r.response.status == NOT_FOUND ==>
      && r.reels == env.reels && r.blobs == env.blobs
      && r.response == Error(NOT_FOUND, "User not found")
      && Authenticate(header, tokens).Authenticated? && HasRequiredFields(form)
      && ParseObjectId(Authenticate(header, tokens).userId).Some?
      && forall u :: u in env.users ==> Some(u.id) != ParseObjectId(Authenticate(header, tokens).userId)
    ensures r.reels != env.reels ==>
      && r.response.status == OK
      && |r.reels| == |env.reels| + 1 && r.reels[..|env.reels|] == env.reels
    ensures r.response.status == OK ==>
      && Authenticate(header, tokens).Authenticated? && HasRequiredFields(form)
      && r.reels[..|env.reels|] == env.reels && |r.reels| == |env.reels| + 1
      && r.blobs == env.blobs + [Blob(env.blobId, form.video.value.name, Authenticate(header, tokens).userId,
                                      form.video.value.name, form.video.value.contentType)]
      && exists u :: u in env.users && ParseObjectId(Authenticate(header, tokens).userId) == Some(u.id)
           && r.reels[|env.reels|] == InitialReel(form, Authenticate(header, tokens).userId, u, env)
           && r.response.body == ReelBody(Stringify(r.reels[|env.reels|]))
    ensures r.blobs == env.blobs || |r.blobs| == |env.blobs| + 1
    ensures Authenticate(header, tokens).Authenticated? && HasRequiredFields(form)
      && !env.fault.At(Connect) && !env.fault.At(FindUser) && !env.fault.At(StoreVideo) && !env.fault.At(InsertReel)
      && (exists u :: u in env.users && ParseObjectId(Authenticate(header, tokens).userId) == Some(u.id))
      ==> r.response.status == OK
    ensures Authenticate(header, tokens).Authenticated? && form.UnreadableForm? ==>
      r == Unchanged(env, INTERNAL_ERROR)
    ensures Authenticate(header, tokens).Authenticated? && HasRequiredFields(form)
      && (env.fault.At(Connect) || ParseObjectId(Authenticate(header, tokens).userId).None? || env.fault.At(FindUser))
      ==> r == Unchanged(env, INTERNAL_ERROR)
    ensures Authenticate(header, tokens).Authenticated? && HasRequiredFields(form)
      && (exists u :: u in env.users && ParseObjectId(Authenticate(header, tokens).userId) == Some(u.id))
      ==> var video := form.video.value;
          && (env.fault.At(StoreVideo) ==> r == Unchanged(env, INTERNAL_ERROR))
          && (env.fault.At(InsertReel) ==>
                r == UploadOutcome(INTERNAL_ERROR, env.reels,
                  env.blobs + [Blob(env.blobId, video.name, Authenticate(header, tokens).userId, video.name, video.contentType)]))
    ensures Authenticate(header, tokens).Authenticated? && HasRequiredFields(form)
      && ParseObjectId(Authenticate(header, tokens).userId).Some?
      && !env.fault.At(Connect) && !env.fault.At(FindUser)
      && (forall u :: u in env.users ==> Some(u.id) != ParseObjectId(Authenticate(header, tokens).userId))
      ==> r == Unchanged(env, Error(NOT_FOUND, "User not found"))
  {
    match Authenticate(header, tokens)
    case NoToken => Unchanged(env, Rejection(NoToken))
    case InvalidToken => Unchanged(env, Rejection(InvalidToken))
    case Authenticated(userId) =>
      if form.UnreadableForm? then Unchanged(env, INTERNAL_ERROR)
      else if !HasRequiredFields(form) then Unchanged(env, Error(BAD_REQUEST, "Missing required fields"))
      else if env.fault.At(Connect) then Unchanged(env, INTERNAL_ERROR)
      else
        match ParseObjectId(userId)
        case None => Unchanged(env, INTERNAL_ERROR)
        case Some(oid) =>
          if env.fault.At(FindUser) then Unchanged(env, INTERNAL_ERROR)
          else
            match FindFirst(env.users, (u: StoredUser) => u.id == oid)
            case None =>
              assert forall u :: u in env.users ==> Some(u.id) != ParseObjectId(userId) by {
                forall u | u in env.users ensures Some(u.id) != ParseObjectId(userId) {
                  var j :| 0 <= j < |env.users| && env.users[j] == u;
                }
              }
              Unchanged(env, Error(NOT_FOUND, "User not found"))
            case Some(i) =>
              if env.fault.At(StoreVideo) then Unchanged(env, INTERNAL_ERROR)
              else
                var video := form.video.value;
                var blobs' := env.blobs + [Blob(env.blobId, video.name, userId, video.name, video.contentType)];
                if env.fault.At(InsertReel) then UploadOutcome(INTERNAL_ERROR, env.reels, blobs')
                else
                  var reel := InitialReel(form, userId, env.users[i], env);
                  var reels' := env.reels + [reel];
                  assert reels'[..|env.reels|] == env.reels;
                  assert env.users[i] in env.users;
                  UploadOutcome(Response(OK, ReelBody(Stringify(reel))), reels', blobs')
  }

  /** When the reel insert throws after the video was stored, the answer is
      500 and the stored video is left behind with no reel pointing at it. */
  lemma FailedInsertOrphansVideo(header: Option<string>, form: Form, env: UploadEnv, tokens: TokenService)
    requires Authenticate(header, tokens).Authenticated? && HasRequiredFields(form)
    requires env.fault == Throws(InsertReel, OtherError)
    requires exists u :: u in env.users && ParseObjectId(Authenticate(header, tokens).userId) == Some(u.id)
    ensures var r := Upload(header, form, env, tokens);
      r.response == INTERNAL_ERROR && r.reels == env.reels && |r.blobs| == |env.blobs| + 1
  {
  }
}

=== FILE: video_player.dfy ===
/** The video player's horizontal swipe gesture: a drag that shows a
    like/dislike indicator past 50 pixels and commits a like or dislike past
    100 pixels when the finger lifts. */
module VideoPlayer {
  import opened Base

  datatype Direction = Like | Dislike

  /** (dragging, startX, currentX, direction) as the player keeps them. */
  datatype SwipeState = SwipeState(dragging: bool, startX: real, currentX: real, direction: Option<Direction>)

  /** What lifting the finger does. */
  datatype Action = NoAction | FireLike | FireDislike

  const INITIAL: SwipeState := SwipeState(false, 0.0, 0.0, None)
  const INDICATOR_THRESHOLD: real := 50.0
  const ACTION_THRESHOLD: real := 100.0

  function Abs(x: real): real { if x < 0.0 then -x else x }

  /** The indicator for a horizontal displacement. */
  function Indicator(diff: real): (d: Option<Direction>)
    ensures d == Some(Like) <==> diff > INDICATOR_THRESHOLD
    ensures d == Some(Dislike) <==> diff < -INDICATOR_THRESHOLD
    ensures d.None? <==> -INDICATOR_THRESHOLD <= diff <= INDICATOR_THRESHOLD
  {
    if Abs(diff) > INDICATOR_THRESHOLD then (if diff > 0.0 then Some(Like) else Some(Dislike)) else None
  }

  /** The action for the displacement at the moment the finger lifts. */
  function Commit(diff: real): (a: Action)
    ensures a == FireLike <==> diff > ACTION_THRESHOLD
    ensures a == FireDislike <==> diff < -ACTION_THRESHOLD
    ensures a == NoAction <==> -ACTION_THRESHOLD <= diff <= ACTION_THRESHOLD
  {
    if Abs(diff) > ACTION_THRESHOLD then (if diff > 0.0 then FireLike else FireDislike) else NoAction
  }

  /** `handleTouchStart` as written: records where the finger went down and
      starts dragging, leaving `currentX` and the indicator as they were. */
  function TouchStartAsWritten(s: SwipeState, x: real): (r: SwipeState)
    ensures r.dragging && r.startX == x
    ensures r.currentX == s.currentX && r.direction == s.direction
  {
    s.(dragging := true, startX := x)
  }

  /** `handleTouchMove`: ignored unless dragging; otherwise the finger's
      position is recorded and the indicator follows the displacement. */
  function TouchMove(s: SwipeState, x: real): (r: SwipeState)
    ensures !s.dragging ==> r == s
    ensures s.dragging ==> r == SwipeState(true, s.startX, x, Indicator(x - s.startX))
  {
    if !s.dragging then s
    else s.(currentX := x, direction := Indicator(x - s.startX))
  }

  /** `handleTouchEnd`: ignored unless dragging; otherwise commits according
      to the displacement of the last recorded position and resets. */
  function TouchEnd(s: SwipeState): (r: (SwipeState, Action))
    ensures !s.dragging ==> r == (s, NoAction)
    ensures s.dragging ==> r.0 == INITIAL
    ensures s.dragging ==> (r.1 == FireLike <==> s.currentX - s.startX > ACTION_THRESHOLD)
    ensures s.dragging ==> (r.1 == FireDislike <==> s.currentX - s.startX < -ACTION_THRESHOLD)
  {
    if !s.dragging then (s, NoAction)
    else (INITIAL, Commit(s.currentX - s.startX))
  }

  /** A committed action always points the way the indicator pointed after
      the last move. */
  lemma ActionAgreesWithIndicator(s: SwipeState, x: real)
    requires s.dragging
    ensures var m := TouchMove(s, x);
      && (TouchEnd(m).1 == FireLike ==> m.direction == Some(Like))
      && (TouchEnd(m).1 == FireDislike ==> m.direction == Some(Dislike))
  {
  }

  /** As written, a tap (finger down and up without moving) more than 100
      pixels from the left edge, from the resting state, commits a dislike:
      the stale `currentX` of 0 is compared with the new `startX`. */
  lemma TapDislikesAsWritten(x: real)
    requires x > ACTION_THRESHOLD
    ensures TouchEnd(TouchStartAsWritten(INITIAL, x)).1 == FireDislike
  {
  }

  /** `handleTouchStart` with the evidently intended reset: the finger's
      position is also the current position and no indicator shows yet. */
  function TouchStart(s: SwipeState, x: real): (r: SwipeState)
    ensures r.dragging && r.startX == x && r.currentX == x && r.direction.None?
    ensures TouchEnd(r).1 == NoAction
  {
    SwipeState(true, x, x, None)
  }

  datatype TouchEvent = Start(x: real) | Move(x: real) | End

  /** Which touch-start handler the player runs: the one in the component,
      or the corrected one. */
  datatype Build = AsWritten | Corrected

  function StartFor(b: Build, s: SwipeState, x: real): (r: SwipeState)
    ensures r.dragging && r.startX == x
    ensures b.Corrected? ==> r.currentX == x
    ensures b.AsWritten? ==> r.currentX == s.currentX
  {
    if b.AsWritten? then TouchStartAsWritten(s, x) else TouchStart(s, x)
  }

  /** The player's state after one event, and the action it fired: only
      lifting the finger can fire one. */
  function Step(b: Build, s: SwipeState, e: TouchEvent): (r: (SwipeState, Action))
    ensures !e.End? ==> r.1 == NoAction
    ensures e.Start? ==> r.0.dragging && r.0.startX == e.x
    ensures e.Move? ==> r.0.startX == s.startX && r.0.dragging == s.dragging
    ensures e.Move? && s.dragging ==> r.0.currentX == e.x
    ensures e.End? && s.dragging ==> r.0 == INITIAL && r.1 == Commit(s.currentX - s.startX)
  {
    match e
    case Start(x) => (StartFor(b, s, x), NoAction)
    case Move(x) => (TouchMove(s, x), NoAction)
    case End => TouchEnd(s)
  }

  /** The state after a finger goes down at `x0` from the resting state and
      moves through `moves`. */
  function Drag(b: Build, x0: real, moves: seq<real>): (r: SwipeState)
    ensures r.dragging && r.startX == x0
    ensures |moves| > 0 ==> r.currentX == moves[|moves| - 1]
    decreases |moves|
  {
    if |moves| == 0 then Step(b, INITIAL, Start(x0)).0
    else Step(b, Drag(b, x0, moves[..|moves| - 1]), Move(moves[|moves| - 1])).0
  }

  /** A whole gesture commits according to the displacement of the last
      position the finger reached. With no move in between, the corrected
      player commits nothing, and the player as written compares the stale
      resting position 0 with the start. */
  lemma GestureCommitsByLastPosition(b: Build, x0: real, moves: seq<real>)
    ensures var last := if |moves| > 0 then moves[|moves| - 1] else if b.Corrected? then x0 else 0.0;
      Step(b, Drag(b, x0, moves), End).1 == Commit(last - x0)
  {
  }
}
